=== FILE: README.md ===
# autoblind rule interpreter — a Dafny model

This project models the core of the SmartHomeNG "autoblind" plugin. The plugin drives one item, typically a
blind, through a set of configured states.

- Each **state** has an *enter* group and a *leave* group of condition sets.
- A **condition** compares a current value with a value, a value list or a `min`/`max` range. It can also
  check the age of an item.
- Each trigger of the controlled item runs one **update cycle**. The cycle keeps the last state if that state
  cannot be left. Otherwise the first enterable state in declaration order wins. The cycle then runs the
  stay, leave or enter actions and persists the last state.

The model is functional. Values, conditions, states and configuration are immutable datatypes, and every
check is a pure function. The controlled item is a record. `Controller.Step` maps that record to the next
record plus the ordered list of action events. The outside world is passed in as parameters:

- item values and ages;
- the shared snapshot of time-dependent readings;
- expression evaluation;
- Python's `str()`;
- the cast to bool;
- the clock.

Modules:

| file | module | models |
|---|---|---|
| results.dfy | Results | `Option`/`Result` wrappers (an `Err` is a raised exception) |
| values.dfy | Values | dynamic Python values, truthiness, `<` with its TypeError |
| condition.dfy | Conditions | `AbCondition`: completion, cast choice, value/list/range/age matching, `check` |
| state.dfy | States | `AbState.can_enter`/`can_leave`/`text` over condition sets |
| state_fill.dfy | StateFill | `AbState.__fill`: `as_use` import chain, routing, name/text defaults |
| item_ids.dfy | ItemIds | `AbItem.return_item`: relative item ids with leading dots |
| item_config.dfy | ItemConfig | `AbItem.__check_item_config` |
| controller.dfy | Controller | `AbItem.update_state`, last state, lock, suspend, variables, start-up |
| manual_filter.dfy | ManualFilter | `AbFunctions.manual_item_update_eval` |

Notes on the semantics chosen:

- **Negated ranges.** Without `negate` a condition matches the closed interval `[min, max]`. With `negate`
  it fails only strictly inside the configured bounds. A value exactly on a bound therefore matches both
  ways (`Conditions.RangeSemantics`, `Conditions.BoundaryMatchesBothWays`). A bound that reads as `None`
  counts as absent.
- **String coercion.** A type mismatch between the current value and a value makes both sides strings. In
  the list branch the converted current value is kept for the remaining elements. Under two stated facts
  about `str()` this is plain membership (`Conditions.ListScanIsMembership`).
- **Errors fail open.** A condition with a recorded completion error always matches. So does an unbound
  condition. A check that raises, for example an eval that fails or a `<` between a string and a number,
  is treated as matching by the condition-set layer (`States.CheckOpen`). That layer (`AbConditionSet`)
  is not part of this model, so this is a modelling choice: a raised check is treated the way `check`
  itself treats a recorded error and a missing binding (AutoBlindCondition.py:171-179), as matching.
- **Empty groups.** How a group with no condition sets answers is decided in `AbConditionSets`, which is
  not part of this model, so this is a modelling choice: an empty group does not restrict entering or
  leaving. The comments at AutoBlindState.py:62 and :75 read "False = No enter condition set is fulfilled",
  which would make an empty group refuse instead. A non-empty group is an OR over sets of an AND over
  conditions, as those comments say.
- **Item-id comment.** The comment above `return_item` lists `"..threedots"` as giving
  `"my.threedots"`. The code gives `"my.autoblind.threedots"` (two dots keep two levels), and the model
  follows the code (`ItemIds.TwoDotsKeepTwoLevels`). Three dots give `"my.threedots"`
  (`ItemIds.ThreeDotsKeepOneLevel`).
- **One level too many.** With exactly `len(levels) + 1` leading dots the code keeps no level at all. It
  resolves to `"." + rest` rather than raising (`ItemIds.NoLevelKeptGivesLeadingDot`). `return_item` then
  still looks that id up and raises "Determined item … does not exist" when the host does not know it
  (AutoBlindItem.py:664-666; `ItemIds.ReturnItem`).

Three points where the code's behaviour is easy to misread:

- **Stay re-persist.** The stay branch (AutoBlindItem.py:252-253) compares the stored last-state name with
  the state's `name`, but `__laststate_set` (AutoBlindItem.py:293-302) stores the state's `text`. The
  comparison is there to restore the name after the lock and suspend paths overwrote it
  (AutoBlindItem.py:183, 193). The update cycle in this model uses the corrected comparison
  (`Controller.Persist`); the code as written is `Controller.PersistAsWritten`. See "## Findings".
- **Suspension.** `__suspend_is_active` (AutoBlindItem.py:374-375) counts a suspension as active whenever an
  end time is set, whether or not that time has passed (`Controller.SuspendIsActive`). The suspension is
  cleared by `__suspend_remove` (AutoBlindItem.py:361-363). The reactivation callback calls it
  (AutoBlindItem.py:399-402), and so does any manual change of the lock item (AutoBlindItem.py:335-337).
  Neither callback is part of the update cycle, and `Controller.Step` never changes the suspension.
- **Too deep `as_use`.** Beyond depth 5 `__fill` logs an error and returns (AutoBlindState.py:124-126). No
  exception is raised, and the state is still built (`StateFill.Fill`).

## Model

| member | source | states |
|---|---|---|
| Values.Less | AutoBlindCondition.py:290-304 | Python `<` on two values: defined when both are numbers (a bool counting as 0/1) or both are strings, in numeric or lexicographic order; every other pairing of None, bools, integers, strings and lists raises a TypeError, except two lists (see "## Left out") |
| Values.LessIrreflexive | AutoBlindCondition.py:290-304 | no number and no string is below itself |
| Conditions.StringOnBothBoundsMatches | AutoBlindCondition.py:285-307 | a string equal to both bounds of a range matches with and without negate, because the range tests never find it below or above itself |
| Conditions.OnePointRange | AutoBlindCondition.py:289-304 | a one-point numeric range admits exactly its point; negated, it admits every value, since nothing lies strictly inside it |
| Conditions.WellKnown | AutoBlindCondition.py:89-121 | the sixteen well-known condition names and their built-in readings, in both directions: a name gets an accessor iff it is that accessor's name |
| Conditions.BindBuiltin | AutoBlindCondition.py:89-121 | a well-known name is bound to its built-in reading only when neither item nor eval is configured; otherwise the condition is unchanged |
| Conditions.CastChoice | AutoBlindCondition.py:140-151 | the cast is the item's cast when an item is bound, else numeric, string or time by the well-known name's class, else no cast |
| Conditions.CastFlag | AutoBlindCondition.py:211-216 | a None flag stays None; any other flag becomes `Bool` of `cast_bool`'s result, and the cast raises when `cast_bool` raises |
| Conditions.ApplyCast | AutoBlindCondition.py:207-216 | a chosen cast is recorded; a negate or agenegate flag that is None stays None, any other becomes `Bool` of `cast_bool`'s result; completion raises exactly when `cast_bool` raises on a flag that is not None; without a cast nothing changes; nothing else is touched |
| Conditions.Complete | AutoBlindCondition.py:82-167 | dropped exactly when value, min, max, agemin and agemax are all empty; a completed condition is bound, has literal min not above literal max, has age bounds only with an item, and carries the chosen cast; item/eval/name preserved and the recorded error is the raised message |
| Conditions.CompleteWithoutBindingRaises | AutoBlindCondition.py:123-138 | with no item, no eval, no well-known name and no `as_item_`/`as_eval_` attribute found, completion records "Neither 'item' nor 'eval' given!" and raises |
| Conditions.CompleteRejectsInvertedLiteralRange | AutoBlindCondition.py:156-160 | literal numeric bounds with min > max make completion raise with the "'min' must not be greater than 'max'!" error recorded |
| Conditions.CompleteRejectsAgeForEval | AutoBlindCondition.py:162-165 | age bounds on an eval-backed condition make completion raise with the "can not be used for eval" error recorded |
| Conditions.AccessorReading | AutoBlindItem.py:565-606 | the built-in readings: age is the last-state id item's age, or 0 without that item; delay and last-state id come from the item; trigger and original readings come from the recorded provenance; the numeric and time readings come from the shared snapshot |
| Conditions.Current | AutoBlindCondition.py:355-375 | the current value is the bound item's value when an item is bound; an error can only come from the eval path |
| Conditions.ResolveOpt | AutoBlindCondition.py:277-285 | an absent bound, or one whose value is None, is no bound; a literal bound is its value |
| Conditions.ListScan | AutoBlindCondition.py:232-250 | the list loop: an empty list gives negate, and an element matching the current value first (after the string fallback) gives not-negate; `Conditions.ListScanIsMembership` characterises it as membership |
| Conditions.ListScanFrom | AutoBlindCondition.py:232-250 | loop invariant of the list scan: with the running current value equal to the original or its string form, the scan's answer is membership under the coercing equality, inverted by negate |
| Conditions.ListScanIsMembership | AutoBlindCondition.py:226-250 | the list branch matches iff some element equals the current value (after the string fallback on a type mismatch), inverted by negate; keeping the converted current value makes no difference |
| Conditions.ScalarMatch | AutoBlindCondition.py:252-273 | the scalar branch matches iff the values are equal after the string fallback, inverted by negate |
| Conditions.RangeCheck | AutoBlindCondition.py:285-307 | no bounds always match; for numbers (a bool counting as 0/1) the result is the closed interval test, or with negate "not strictly inside the bounds"; for strings the same rule under Python's string order; a current value that is neither a number nor a string raises once a bound is set |
| Conditions.BoundaryMatchesBothWays | AutoBlindCondition.py:289-304 | a value exactly on a bound of a well-ordered range matches with and without negate |
| Conditions.CheckValue | AutoBlindCondition.py:219-307 | a literal scalar value decides by coercing equality inverted by negate; a literal list decides by membership under coercing equality inverted by negate (under the two `str()` facts); with no value, literal numeric bounds decide by the closed/negated range rule; with no value and no bounds the check matches |
| Conditions.ValueIgnoresRange | AutoBlindCondition.py:222-224 | when a value is configured, min and max have no influence on the value check |
| Conditions.CheckAge | AutoBlindCondition.py:312-350 | no age bounds or no item: matches; literal numeric bounds: the same closed/negated range rule applied to the item's age with agenegate |
| Conditions.Check | AutoBlindCondition.py:170-185 | a recorded error or a missing binding always matches; otherwise matches iff the current value is available, the value check matches and the age check matches; a failed value check fails |
| Conditions.FailedCompletionIsFailOpen | AutoBlindCondition.py:171-174 | a condition whose completion recorded an error matches whatever the live data |
| States.Text | AutoBlindState.py:38-42 | the text is the configured text, or the state's name when none is set |
| States.CanEnter | AutoBlindState.py:61-72 | a state can be entered iff its enter group is empty or some enter set has every condition matching (`States.CanEnterIsOrOfAnd`) |
| States.CanLeave | AutoBlindState.py:74-85 | a state can be left iff its leave group is empty or some leave set has every condition matching (`States.CanLeaveIsOrOfAnd`) |
| States.AllMatch | AutoBlindState.py:62-66 | a condition set matches iff every one of its conditions matches (an exception counting as a match) |
| States.AnySetMatches | AutoBlindState.py:62-66 | the group scan finds a match iff some set of the group matches entirely |
| States.CanEnterIsOrOfAnd | AutoBlindState.py:61-72 | a state can be entered iff its enter group is empty or some enter set has all its conditions matching |
| States.CanLeaveIsOrOfAnd | AutoBlindState.py:74-85 | a state can be left iff its leave group is empty or some leave set has all its conditions matching |
| States.FailedConditionNeverBlocks | AutoBlindCondition.py:170-174 | a condition with a recorded error never blocks its set |
| StateFill.RouteOf | AutoBlindState.py:139-145 | a child named `enter` or `enter_*` goes to the enter group, otherwise `leave` or `leave_*` to the leave group, otherwise nowhere |
| StateFill.RouteOne | AutoBlindState.py:139-145 | routing one child changes only the group its name selects, by merging its attributes into the set of that name |
| StateFill.RouteChildren | AutoBlindState.py:137-145 | routing all children leaves a group unchanged when no child is routed to it and touches nothing but the two groups |
| StateFill.LastChildWins | AutoBlindState.py:139-145 | in the enter group and in the leave group alike, an attribute of the last child routed to a set is the value that set ends up with |
| StateFill.LaterChildrenKeep | AutoBlindState.py:139-145 | in either group, children with other names leave a set's attributes as they were |
| StateFill.Layer | AutoBlindState.py:136-166 | one node's contribution: its own attributes win in the actions and imported actions it does not set are kept; completion only at depth 0; name taken when the node has a name of its own or at depth 0 when still empty; text from `as_name`, else the name at depth 0 |
| StateFill.Fill | AutoBlindState.py:123-134 | beyond depth 5 nothing is imported; completion happens exactly once, at depth 0 |
| StateFill.Imported | AutoBlindState.py:128-134 | without `as_use` a node imports nothing; an unresolvable `as_use` fails the state |
| StateFill.BuildState | AutoBlindState.py:47-58 | a built state has been completed exactly once and always has a text |
| StateFill.Chain | AutoBlindState.py:123-132 | the `as_use` chain from a state holds at most six nodes (depth 0 to 5), starting with the state's own node |
| StateFill.FillDeep | AutoBlindState.py:123-160 | below depth 0, filling succeeds iff the chain resolves, and yields the shallowest own name and the shallowest `as_name` along the chain |
| StateFill.NameAndTextFromChain | AutoBlindState.py:153-160 | a state's name is the shallowest own name along its `as_use` chain, else its id; its text is the shallowest `as_name`, else its name |
| StateFill.OwnSetsLayeredOnTop | AutoBlindState.py:128-145 | the state's own enter-set and leave-set attributes win over everything imported through `as_use` |
| StateFill.OwnActionsLayeredOnTop | AutoBlindState.py:128-151 | the state's own attributes win in its actions over everything imported through `as_use`, and imported actions it does not set are kept |
| ItemIds.LeadingDots | AutoBlindItem.py:647-651 | the count is the length of the run of dots the id starts with |
| ItemIds.Split | AutoBlindItem.py:653 | splitting on dots gives at least one level and no level contains a dot |
| ItemIds.DottedSplit | AutoBlindItem.py:653 | joining the levels of an id with dots gives the id back |
| ItemIds.SplitDotted | AutoBlindItem.py:653 | splitting a dot-joined list of dot-free levels gives the levels back |
| ItemIds.JoinFromIsDotted | AutoBlindItem.py:658-660 | the joining loop equals joining with dots when the first level is not empty |
| ItemIds.ResolveItemId | AutoBlindItem.py:640-663 | an id without leading dots passes through; the resolution fails exactly when there are more than len(levels)+1 leading dots |
| ItemIds.ReturnItem | AutoBlindItem.py:640-667 | the lookup succeeds iff the id resolves and the host knows the resolved item, and then returns the resolved id; a resolution error is passed on unchanged |
| ItemIds.OneDotAppends | AutoBlindItem.py:631-636 | one leading dot places the rest directly below the controlled item: `self + "." + rest` |
| ItemIds.ResolvedValue | AutoBlindItem.py:653-663 | with k leading dots (1 <= k <= len(levels)) the result is the first len(levels)-k+1 levels joined by dots, then "." and the remainder if any |
| ItemIds.ResolvedLevels | AutoBlindItem.py:653-663 | the same at the level of the split result: the kept levels followed by the remainder's levels |
| ItemIds.NoLevelKeptGivesLeadingDot | AutoBlindItem.py:654-663 | with exactly len(levels)+1 dots nothing is kept and the result is "." followed by the remainder |
| ItemIds.TwoDotsKeepTwoLevels | AutoBlindItem.py:634-637 | for any item `a.b.c`, `..n` resolves to `a.b.n` |
| ItemIds.ThreeDotsKeepOneLevel | AutoBlindItem.py:653-663 | for any item `a.b.c`, `...n` resolves to `a.n` |
| ItemConfig.ItemFixups | AutoBlindItem.py:424-429 | enforce-updates is always on; eval becomes "1" exactly when an eval trigger is set and eval is None |
| ItemConfig.FirstCycle | AutoBlindItem.py:439-447 | the first cycle entry keeps its key and gets "1" when its value is None; an empty cycle raises |
| ItemConfig.FillCron | AutoBlindItem.py:450-458 | every cron entry keeps its key and order; None values become 1 and others are kept |
| ItemConfig.CheckItemConfig | AutoBlindItem.py:422-463 | the scheduler is changed iff the first cycle value or some cron value is None, and then with the defaulted cycle and cron; without a job only the item is fixed up |
| ItemConfig.CheckIsIdempotent | AutoBlindItem.py:422-463 | running the check again after its change has been applied changes nothing more |
| Controller.InitialVars | AutoBlindItem.py:112-118 | the variable table holds exactly the four variables: the suspension time, 0 remaining and "" for the state id and name |
| Controller.Initial | AutoBlindItem.py:61-118 | the record before start-up: the stored last-state id and name only when their items are configured, else ""; no suspension, not stuck, start-up not over, no update running, the initial variables |
| Controller.PersistSurvivesRestart | AutoBlindItem.py:88-92 | with both last-state items configured, the writes carry the record's new id and name, and a restart that reads them back restores both |
| Controller.VariablesStayKnown | AutoBlindItem.py:149-266 | no update cycle removes a variable, so the set-up variables can always be set |
| Controller.GetVariable | AutoBlindItem.py:609-611 | a known variable's value, or the "(Unknown variable ...)" placeholder |
| Controller.SetVariable | AutoBlindItem.py:613-616 | setting an unknown variable raises; otherwise the set of variables is unchanged |
| Controller.SetThenGet | AutoBlindItem.py:609-616 | after setting a variable, getting it returns the value set and every other variable reads as before |
| Controller.Scoped | AutoBlindItem.py:270-288 | while a state is checked, `current.state_id`/`current.state_name` hold its id and name and other variables are untouched |
| Controller.Cleared | AutoBlindItem.py:270-288 | after a check both state variables are "" and other variables are untouched |
| Controller.LaststateGet | AutoBlindItem.py:306-311 | the last state is the first state with the stored id, and None iff no state has it |
| Controller.LaststateSet | AutoBlindItem.py:293-302 | persisting stores the state's id and its text and changes nothing else |
| Controller.LaststateWrites | AutoBlindItem.py:293-302 | one write per configured last-state item: the id item receives the state's id first, then the name item receives the state's text |
| Controller.LockIsActive | AutoBlindItem.py:317-322 | locked iff a lock item is configured and its value is truthy; without a lock item never (`Controller.LockStopsTheCycle`) |
| Controller.SuspendIsActive | AutoBlindItem.py:374-375 | suspended iff an end time is set, whether or not it has passed (`Controller.SuspendStopsTheCycle`) |
| Controller.CanEnterChecked | AutoBlindItem.py:279-288 | with the state variables set to the checked state's id and name, enterable iff the enter group is empty or some enter set fully matches |
| Controller.CanLeaveChecked | AutoBlindItem.py:268-277 | with the state variables set to the checked state's id and name, leavable iff the leave group is empty or some leave set fully matches |
| Controller.CheckIgnoresStaleStateVars | AutoBlindItem.py:268-288 | whatever the state variables held before a check, the result is the same, because the checked state's id and name replace them |
| Controller.FirstEnterable | AutoBlindItem.py:222-228 | the scan returns the first enterable state in declared order, or None when none is enterable |
| Controller.Decide | AutoBlindItem.py:212-228 | stuck iff there is a last state that cannot be left; otherwise the first enterable state, or no candidate |
| Controller.Persist | AutoBlindItem.py:247-264 | on a stay, only the stay actions run, plus the last-state writes when the stored name differs from the text; on a change, leave (if any) before enter, then the writes |
| Controller.Prepared | AutoBlindItem.py:199-209 | before checking, the suspend variables are refreshed (remaining = -1) and the delay is now minus stuck-since, or 0 when not stuck |
| Controller.Evaluate | AutoBlindItem.py:197-266 | after any check the state variables are ""; nothing but last state, stuck-since, delay and variables changes |
| Controller.Step | AutoBlindItem.py:149-266 | an update cycle never leaves the in-progress flag set and never changes the states, the suspension or the start-up flag |
| Controller.BusyOrStartingIsIgnored | AutoBlindItem.py:150-151 | a trigger during an update or before the start-up delay is over changes nothing |
| Controller.OwnChangesAreIgnored | AutoBlindItem.py:167-170 | a trigger whose caller or original caller is the plugin itself changes nothing |
| Controller.LockStopsTheCycle | AutoBlindItem.py:181-186 | when locked, the trigger is recorded, the last-state name becomes the "locked" text and nothing else happens |
| Controller.SuspendStopsTheCycle | AutoBlindItem.py:188-195 | when suspended, the trigger is recorded, the last-state name becomes the suspension text and no condition is evaluated |
| Controller.AdmittedCycleEvaluates | AutoBlindItem.py:172-199 | otherwise the cycle records the trigger and evaluates the states |
| Controller.CannotLeaveStays | AutoBlindItem.py:212-244 | a last state that cannot be left is kept with only its stay actions; stuck-since becomes now if it was 0, and 0 if the state can still be entered |
| Controller.FirstEnterableWins | AutoBlindItem.py:222-262 | when leaving is allowed, the first enterable state becomes the last state with stuck-since 0; on a change leave runs before enter and the new id and text are written |
| Controller.NoCandidateKeepsLastState | AutoBlindItem.py:230-239 | with no enterable state the last state's stay actions run, or nothing when there is none; the last state is unchanged |
| Controller.NewLastStateWasEnterable | AutoBlindItem.py:212-262 | the last state changes only to a state found enterable in this cycle |
| Controller.StaySettles | AutoBlindItem.py:247-253 | staying in a state persisted with its text runs only the stay actions and leaves the record unchanged |
| Controller.PersistAsWritten | AutoBlindItem.py:247-264 | the persistence step with the stay comparison as written: on a stay the writes happen when the stored name differs from the state's name |
| Controller.AsWrittenNeverSettles | AutoBlindItem.py:252-253 | as written, a state whose text differs from its name is re-persisted on every stay, even right after being persisted, and the record it leaves is unchanged so the next stay writes again |
| Controller.AsWrittenExample | AutoBlindItem.py:252-253 | a state "day" shown as "Day position" writes its last-state name again on a stay right after being persisted |
| Controller.KeepBuilt | AutoBlindItem.py:120-125 | the states kept are exactly those that could be built |
| Controller.KeepBuiltConcat | AutoBlindItem.py:120-125 | the kept states of two runs of children are the kept states of each, one after the other: declared order is preserved |
| Controller.KeepBuiltAppend | AutoBlindItem.py:121-125 | building one more state appends it to the kept states, and a state that failed to build adds nothing |
| Controller.InitStates | AutoBlindItem.py:120-128 | set-up fails with "No states defined!" iff no state could be built; otherwise it keeps the built states in declared order |
| Controller.PlanStartup | AutoBlindItem.py:133-144 | a positive delay schedules the start, -1 only registers the triggers, anything else (including none) starts at once |
| Controller.StartupCallback | AutoBlindItem.py:622-626 | the start-up callback marks start-up as over and runs one update cycle triggered by "Startup Delay" |
| Controller.StartupCallbackEvaluates | AutoBlindItem.py:622-626 | unless an update is running, the plugin started the chain, or the item is locked or suspended, the start-up callback evaluates the states with the "Startup Delay" trigger recorded |
| Controller.Startup | AutoBlindItem.py:133-144 | a scheduled start leaves the record untouched; -1 marks start-up over and registers the triggers; an immediate start runs the start-up callback's cycle |
| Controller.ScheduledStartupIgnoresTriggers | AutoBlindItem.py:150-151 | while the scheduled start-up is pending every trigger is ignored |
| ManualFilter.Partition | AutoBlindFunctions.py:57 | splitting at the first ":" gives a colon-free head and a tail that rebuild the entry; without a colon the tail is "" |
| ManualFilter.AnyMatch | AutoBlindFunctions.py:56-60 | the scan finds a match iff some entry matches caller and source |
| ManualFilter.ManualUpdate | AutoBlindFunctions.py:39-82 | the result is the current value or its boolean negation, and the negation exactly when no exclude entry matches, both settings are strings or lists, and include is absent or has a match |
| ManualFilter.ExcludeWins | AutoBlindFunctions.py:46-60 | any matching exclude entry yields the current value whatever the include setting |
| ManualFilter.WildcardIncludeCounts | AutoBlindFunctions.py:62-76 | an include entry "*:*" makes every change count when nothing is excluded |

## Findings

| source | as written | input that shows it | evidently intended | confidence | as-written member | corrected member |
|---|---|---|---|---|---|---|
| AutoBlindItem.py:252-253 | the stay branch re-persists when the stored last-state name differs from the state's `name`, but `__laststate_set` stores the state's `text` | a state whose `as_name` differs from its item name, staying for two cycles: both cycles write the last-state items | re-persist only when the stored name differs from the state's text | medium; not executed | Controller.AsWrittenNeverSettles | Controller.StaySettles |

The model uses the corrected comparison (`Controller.StayNeedsPersist`) in `Controller.Persist`, which the
update cycle uses. The code as written is `Controller.PersistAsWritten`, with the comparison
`Controller.StayNeedsPersistAsWritten`.

## Left out

- Numbers are integers. Item ages, `time.time()` and the delay are floats in the plugin. Sun position
  arithmetic and random numbers (AutoBlindEval.py) are not modelled.
- Value casts are not applied. Only the choice of cast and the cast of the negate flags to bool are modelled.
  `AbValue` is not part of this model. Bounds and values are literals, item reads or eval results.
- Python `eval()` of condition strings and `AutoBlindCurrent` become parameters of `Env`. Expression errors
  are an `Err`.
- `AbConditionSet`, `AbConditionSets` and `AbActions` are not part of this model.
  - A condition set is a named list of conditions. An exception while checking counts as a match.
  - A group with no condition sets matches (`States.OneSetMatching`); this is a modelling choice, since the
    rule lives in `AbConditionSets`.
  - Merging a child's attributes into a set (`StateFill.Merge`) stands in for `update`.
  - Actions are events (`RunStay`, `RunLeave`, `RunEnter`) and are not executed.
- `AutoBlindTools` is not part of this model. `get_original_caller` becomes a parameter of `Step`, and
  `find_attribute`, `cast_bool` and `str()` are parameters. `get_last_part_of_item_id` is `StateFill.LastPart`.
- Scheduler and timer calls, trigger registration (`__add_triggers`), the lock callback, the suspend
  watch/reactivate callbacks and `__suspend_set`/`__suspend_remove` are host-callback plumbing.
  Suspension is an optional end time in the record. Setting it and clearing it (by the reactivation
  callback or by the lock callback's removal on a manual lock change) are not modelled. A start-up schedule is returned as its delay.
- Logging, `write_to_log`, the CLI commands and the verbose trigger/cron string builders are purely
  observational.
- Controller.Step: one `now` stands for both `time.time()` calls of a cycle.
- Controller.Step: a nested trigger that an action fires during a cycle is not modelled. A step's events are
  the actions to run, and the in-progress flag only shows that such a trigger would be dropped.
- Controller.Step: the `RunStay`/`RunLeave`/`RunEnter` events stand for `run_stay`, `run_leave` and
  `run_enter` (AutoBlindItem.py:237, 249, 259, 262). `AbState` as shown defines only `activate`
  (AutoBlindState.py:113). Against that class those calls would raise `AttributeError`, and with no
  `try`/`finally` the in-progress flag would stay set, so every later trigger would be ignored
  (AutoBlindItem.py:150-151). The model assumes the three methods exist and run the state's actions.
- Controller.Step: an exception raised by an action or by `__laststate_set` would leave the in-progress flag
  set. Actions are not executed here, so this path is not modelled.
- ItemConfig.CheckItemConfig: cycle and cron dictionaries are lists of key/value pairs in insertion order.
  Which keys are present is taken as given.
- ManualFilter.ManualUpdate: a list setting is a list of strings. A list holding something other than a
  string would raise `AttributeError` at `entry.partition(":")` (AutoBlindFunctions.py:57, 73); the model
  cannot express that input.
- Values.Less: Python orders two lists element by element. Here a comparison between two lists raises like
  any other unsupported pairing.
- StateFill.BuildState: the assembled draft is not turned into the `States.State` the update cycle checks.
  Condition sets stay attribute maps because `AbConditionSets` is not part of this model, so `StateFill` and
  `States` are not connected.
- StateFill.Fill: an `as_use` target that cannot be found raises from `return_item`. This fails the
  state, which set-up then ignores (`Controller.InitStates`). The "Referenced item not found" branch is
  unreachable in the source.

=== FILE: condition.dfy ===
/** One condition of a condition set: completion (binding, casting choice and
    validation at configuration time) and the check against the current value
    (exact value, value list, range, age range, each with its negation rule). */
module Conditions {
  import opened Results
  import opened Values

  /** Where a configured value comes from (literal, item reference, eval expression). */
  datatype Source = Literal(v: Val) | FromItem(id: string) | FromEval(text: string)

  /** The built-in readings a well-known condition name is bound to. */
  datatype Accessor =
    | Weekday | SunAzimut | SunAltitude | Age | Delay | Time | Random | Month
    | LastState
    | TriggerItem | TriggerCaller | TriggerSource | TriggerDest
    | OriginalItem | OriginalCaller | OriginalSource

  /** A condition's eval binding: a built-in accessor or an expression text. */
  datatype Eval = Builtin(accessor: Accessor) | Expr(text: string)

  /** The cast chosen at completion: the bound item's own cast, or by name class. */
  datatype CastKind = ItemCast(item: string) | NumCast | StrCast | TimeCast

  /** `negate` and `agenegate` hold the raw configured object: they are only
      turned into booleans when a cast is chosen at completion. */
  datatype Condition = Condition(
    name: string,
    item: Option<string>,
    eval: Option<Eval>,
    value: Option<Source>,
    min: Option<Source>,
    max: Option<Source>,
    negate: Val,
    agemin: Option<Source>,
    agemax: Option<Source>,
    agenegate: Val,
    cast: Option<CastKind>,
    error: Option<string>)

  /** Trigger provenance as recorded by the update cycle (strings or None). */
  datatype Provenance = Provenance(item: Val, caller: Val, source: Val, dest: Val)

  /** What the owning controller exposes to conditions during one cycle. */
  datatype Scope = Scope(
    vars: map<string, Val>,
    laststateItem: Option<string>,
    laststateId: string,
    delay: int,
    trigger: Provenance,
    original: Provenance)

  /** The outside world: item values and ages, the shared snapshot of
      time-dependent values, the host's expression evaluation and `str()`. */
  datatype Env = Env(
    read: string -> Val,
    age: string -> int,
    ambient: Accessor -> Val,
    evaluate: (string, map<string, Val>) -> Result<Val>,
    toStr: Val -> string)

  // ---------------------------------------------------------------------------
  // Well-known names

  function AccessorName(a: Accessor): string {
    match a
    case Weekday => "weekday"
    case SunAzimut => "sun_azimut"
    case SunAltitude => "sun_altitude"
    case Age => "age"
    case Delay => "delay"
    case Time => "time"
    case Random => "random"
    case Month => "month"
    case LastState => "laststate"
    case TriggerItem => "trigger_item"
    case TriggerCaller => "trigger_caller"
    case TriggerSource => "trigger_source"
    case TriggerDest => "trigger_dest"
    case OriginalItem => "original_item"
    case OriginalCaller => "original_caller"
    case OriginalSource => "original_source"
  }

  /** The accessor a condition name is bound to when neither item nor eval is given. */
  function WellKnown(name: string): (r: Option<Accessor>)
    ensures r.Some? ==> AccessorName(r.value) == name
    ensures forall a: Accessor :: AccessorName(a) == name ==> r == Some(a)
  {
    if name == "weekday" then Some(Weekday)
    else if name == "sun_azimut" then Some(SunAzimut)
    else if name == "sun_altitude" then Some(SunAltitude)
    else if name == "age" then Some(Age)
    else if name == "delay" then Some(Delay)
    else if name == "time" then Some(Time)
    else if name == "random" then Some(Random)
    else if name == "month" then Some(Month)
    else if name == "laststate" then Some(LastState)
    else if name == "trigger_item" then Some(TriggerItem)
    else if name == "trigger_caller" then Some(TriggerCaller)
    else if name == "trigger_source" then Some(TriggerSource)
    else if name == "trigger_dest" then Some(TriggerDest)
    else if name == "original_item" then Some(OriginalItem)
    else if name == "original_caller" then Some(OriginalCaller)
    else if name == "original_source" then Some(OriginalSource)
    else None
  }

  /** The cast class of each built-in reading. */
  function CastClass(a: Accessor): CastKind {
    match a
    case Weekday | SunAzimut | SunAltitude | Age | Delay | Random | Month => NumCast
    case Time => TimeCast
    case _ => StrCast
  }

  /** `__cast_all`'s argument: the item's cast if an item is bound, otherwise
      chosen by the name's class, otherwise no cast at all. */
  function CastChoice(item: Option<string>, name: string): (r: Option<CastKind>)
    ensures item.Some? ==> r == Some(ItemCast(item.value))
    ensures item.None? && WellKnown(name).Some? ==> r == Some(CastClass(WellKnown(name).value))
    ensures item.None? && WellKnown(name).None? ==> r.None?
  {
    if item.Some? then Some(ItemCast(item.value))
    else if name in {"weekday", "sun_azimut", "sun_altitude", "age", "delay", "random", "month"} then Some(NumCast)
    else if name in {"laststate", "trigger_item", "trigger_caller", "trigger_source", "trigger_dest",
                     "original_item", "original_caller", "original_source"} then Some(StrCast)
    else if name == "time" then Some(TimeCast)
    else None
  }

  // ---------------------------------------------------------------------------
  // Completion

  /** What the configuration lookups and casts of the host provide to `complete`. */
  datatype CompleteCtx = CompleteCtx(
    findAttr: string -> Option<string>,
    returnItem: string -> Result<string>,
    castBool: Val -> Result<bool>)

  /** `complete` either drops the condition, completes it, or raises; a raise
      keeps the condition object as it was left (with or without an error). */
  datatype Completion = Dropped | Completed(cond: Condition) | Raised(cond: Condition, msg: string)

  predicate Vacuous(c: Condition) {
    c.value.None? && c.min.None? && c.max.None? && c.agemin.None? && c.agemax.None?
  }

  predicate Bound(c: Condition) {
    c.item.Some? || c.eval.Some?
  }

  predicate HasAgeBounds(c: Condition) {
    c.agemin.Some? || c.agemax.Some?
  }

  predicate LiteralRange(c: Condition) {
    c.min.Some? && c.min.value.Literal? && c.max.Some? && c.max.value.Literal?
  }

  /** Literal `min` is not above literal `max` (Python `min > max` is False). */
  predicate MinNotAboveMax(c: Condition) {
    LiteralRange(c) ==> Less(c.max.value.v, c.min.value.v) == Ok(false)
  }

  function NeitherMsg(name: string): string {
    "Condition " + name + ": Neither 'item' nor 'eval' given!"
  }

  function MinAboveMaxMsg(name: string): string {
    "Condition " + name + ": 'min' must not be greater than 'max'!"
  }

  function AgeForEvalMsg(name: string): string {
    "Condition " + name + ": 'agemin'/'agemax' can not be used for eval!"
  }

  /** Casting a flag that is not None to bool. */
  function CastFlag(flag: Val, castBool: Val -> Result<bool>): (r: Result<Val>)
    ensures flag.Null? ==> r == Ok(Null)
    ensures !flag.Null? && castBool(flag).Ok? ==> r == Ok(Bool(castBool(flag).value))
    ensures !flag.Null? && castBool(flag).Err? ==> r.Err?
  {
    if flag.Null? then Ok(flag)
    else
      var b :- castBool(flag);
      Ok(Bool(b))
  }

  /** `__cast_all` when a cast was chosen: records the cast and turns both
      negation flags into booleans; without a cast nothing changes. */
  function ApplyCast(c: Condition, choice: Option<CastKind>, castBool: Val -> Result<bool>): (r: Result<Condition>)
    ensures choice.None? ==> r == Ok(c)
    ensures r.Ok? ==> r.value == c.(cast := r.value.cast, negate := r.value.negate, agenegate := r.value.agenegate)
    ensures r.Ok? && choice.Some? ==>
      && r.value.cast == choice
      && (c.negate.Null? ==> r.value.negate == Null)
      && (!c.negate.Null? ==> castBool(c.negate).Ok? && r.value.negate == Bool(castBool(c.negate).value))
      && (c.agenegate.Null? ==> r.value.agenegate == Null)
      && (!c.agenegate.Null? ==> castBool(c.agenegate).Ok? && r.value.agenegate == Bool(castBool(c.agenegate).value))
    ensures choice.Some? ==>
      (r.Err? <==> (!c.negate.Null? && castBool(c.negate).Err?) || (!c.agenegate.Null? && castBool(c.agenegate).Err?))
  {
    if choice.None? then Ok(c)
    else
      var negate :- CastFlag(c.negate, castBool);
      var agenegate :- CastFlag(c.agenegate, castBool);
      Ok(c.(cast := choice, negate := negate, agenegate := agenegate))
  }

  /** Step 1 of binding: a well-known name gets its built-in accessor when
      neither an item nor an eval is configured. */
  function BindBuiltin(c: Condition): (r: Condition)
    ensures c.item.None? && c.eval.None? && WellKnown(c.name).Some? ==> r == c.(eval := Some(Builtin(WellKnown(c.name).value)))
    ensures !(c.item.None? && c.eval.None? && WellKnown(c.name).Some?) ==> r == c
  {
    if c.item.None? && c.eval.None? then
      match WellKnown(c.name)
      case Some(a) => c.(eval := Some(Builtin(a)))
      case None => c
    else c
  }

  /** Completion of a condition. */
  function Complete(c: Condition, ctx: CompleteCtx): (r: Completion)
    ensures r.Dropped? <==> Vacuous(c)
    ensures r.Completed? ==>
      && Bound(r.cond) && r.cond.error == c.error
      && MinNotAboveMax(r.cond)
      && (HasAgeBounds(r.cond) ==> r.cond.item.Some?)
    ensures r.Completed? && CastChoice(r.cond.item, r.cond.name).Some? ==>
      r.cond.cast == CastChoice(r.cond.item, r.cond.name)
    ensures !r.Dropped? ==> r.cond.name == c.name
    ensures !r.Dropped? && c.eval.Some? ==> r.cond.eval == c.eval
    ensures !r.Dropped? && c.item.Some? ==> r.cond.item == c.item
    ensures !r.Dropped? && c.item.None? && c.eval.None? && WellKnown(c.name).Some? ==>
      r.cond.eval == Some(Builtin(WellKnown(c.name).value))
    ensures !r.Dropped? && r.cond.eval.Some? && r.cond.eval.value.Builtin? ==>
      c.eval == r.cond.eval || (c.item.None? && c.eval.None?)
    ensures c.error.None? && r.Raised? && r.cond.error.Some? ==> r.msg == r.cond.error.value
  {
    if Vacuous(c) then Dropped
    else
      var c1 := BindBuiltin(c);
      var itemAttr := if c1.item.None? then ctx.findAttr("as_item_" + c1.name) else None;
      if itemAttr.Some? && ctx.returnItem(itemAttr.value).Err? then
        Raised(c1, ctx.returnItem(itemAttr.value).msg)
      else
        var c2 := if itemAttr.Some? then c1.(item := Some(ctx.returnItem(itemAttr.value).value)) else c1;
        var evalAttr := if c2.eval.None? then ctx.findAttr("as_eval_" + c2.name) else None;
        var c3 := if evalAttr.Some? then c2.(eval := Some(Expr(evalAttr.value))) else c2;
        if !Bound(c3) then
          Raised(c3.(error := Some(NeitherMsg(c.name))), NeitherMsg(c.name))
        else
          match ApplyCast(c3, CastChoice(c3.item, c3.name), ctx.castBool)
          case Err(e) => Raised(c3.(error := Some(e)), e)
          case Ok(c4) =>
            if LiteralRange(c4) && Less(c4.max.value.v, c4.min.value.v).Err? then
              Raised(c4, Less(c4.max.value.v, c4.min.value.v).msg)
            else if LiteralRange(c4) && Less(c4.max.value.v, c4.min.value.v) == Ok(true) then
              Raised(c4.(error := Some(MinAboveMaxMsg(c.name))), MinAboveMaxMsg(c.name))
            else if c4.item.None? && HasAgeBounds(c4) then
              Raised(c4.(error := Some(AgeForEvalMsg(c.name))), AgeForEvalMsg(c.name))
            else
              Completed(c4)
  }

  /** A non-vacuous condition for which no binding can be found records an
      error and raises. */
  lemma CompleteWithoutBindingRaises(c: Condition, ctx: CompleteCtx)
    requires !Vacuous(c) && c.item.None? && c.eval.None? && WellKnown(c.name).None?
    requires ctx.findAttr("as_item_" + c.name).None? && ctx.findAttr("as_eval_" + c.name).None?
    ensures Complete(c, ctx) == Raised(c.(error := Some(NeitherMsg(c.name))), NeitherMsg(c.name))
  {
  }

  /** Literal bounds with `min > max` are rejected at completion time. */
  lemma CompleteRejectsInvertedLiteralRange(c: Condition, ctx: CompleteCtx, lo: int, hi: int)
    requires c.item.Some?
    requires c.min == Some(Literal(Num(lo))) && c.max == Some(Literal(Num(hi))) && hi < lo
    requires forall v :: ctx.castBool(v).Ok?
    ensures Complete(c, ctx).Raised?
    ensures Complete(c, ctx).cond.error == Some(MinAboveMaxMsg(c.name))
  {
    var c4 := ApplyCast(c, CastChoice(c.item, c.name), ctx.castBool).value;
    assert LiteralRange(c4) && Less(c4.max.value.v, c4.min.value.v) == Ok(true);
  }

  /** Age bounds on a condition that ends up eval-backed are a configuration error. */
  lemma CompleteRejectsAgeForEval(c: Condition, ctx: CompleteCtx, text: string)
    requires c.item.None? && c.eval == Some(Expr(text)) && HasAgeBounds(c) && !LiteralRange(c)
    requires ctx.findAttr("as_item_" + c.name).None?
    requires forall v :: ctx.castBool(v).Ok?
    ensures Complete(c, ctx) == Raised(Complete(c, ctx).cond, AgeForEvalMsg(c.name))
    ensures Complete(c, ctx).cond.error == Some(AgeForEvalMsg(c.name))
  {
  }

  // ---------------------------------------------------------------------------
  // Reading values

  /** The value of a built-in accessor; `age` reads the age of the last-state
      item and is 0 when there is none. */
  function AccessorReading(a: Accessor, env: Env, scope: Scope): (r: Val)
    ensures a == Age ==> r == (if scope.laststateItem.Some? then Num(env.age(scope.laststateItem.value)) else Num(0))
    ensures a == Delay ==> r == Num(scope.delay)
    ensures a == LastState ==> r == Str(scope.laststateId)
    ensures a == TriggerItem ==> r == scope.trigger.item
    ensures a == TriggerCaller ==> r == scope.trigger.caller
    ensures a == TriggerSource ==> r == scope.trigger.source
    ensures a == TriggerDest ==> r == scope.trigger.dest
    ensures a == OriginalItem ==> r == scope.original.item
    ensures a == OriginalCaller ==> r == scope.original.caller
    ensures a == OriginalSource ==> r == scope.original.source
    ensures CastClass(a) == NumCast && a !in {Age, Delay} ==> r == env.ambient(a)
    ensures a == Time ==> r == env.ambient(a)
  {
    match a
    case Age => if scope.laststateItem.Some? then Num(env.age(scope.laststateItem.value)) else Num(0)
    case Delay => Num(scope.delay)
    case LastState => Str(scope.laststateId)
    case TriggerItem => scope.trigger.item
    case TriggerCaller => scope.trigger.caller
    case TriggerSource => scope.trigger.source
    case TriggerDest => scope.trigger.dest
    case OriginalItem => scope.original.item
    case OriginalCaller => scope.original.caller
    case OriginalSource => scope.original.source
    case _ => env.ambient(a)
  }

  /** The current value of a condition: the item if bound, else the eval. */
  function Current(c: Condition, env: Env, scope: Scope): (r: Result<Val>)
    ensures c.item.Some? ==> r == Ok(env.read(c.item.value))
    ensures r.Err? ==> c.item.None?
  {
    if c.item.Some? then Ok(env.read(c.item.value))
    else if c.eval.Some? then
      match c.eval.value
      case Builtin(a) => Ok(AccessorReading(a, env, scope))
      case Expr(text) =>
        match env.evaluate(text, scope.vars)
        case Ok(v) => Ok(v)
        case Err(e) => Err("Condition " + c.name + ": problem evaluating " + text + ": " + e)
    else Err("Condition " + c.name + ": Neither 'item' nor eval given!")
  }

  function Resolve(src: Source, env: Env, scope: Scope): Result<Val> {
    match src
    case Literal(v) => Ok(v)
    case FromItem(id) => Ok(env.read(id))
    case FromEval(text) => env.evaluate(text, scope.vars)
  }

  /** An optional bound; a bound whose value reads as None counts as absent,
      as the range tests only look at `is not None`. */
  function ResolveOpt(src: Option<Source>, env: Env, scope: Scope): (r: Result<Option<Val>>)
    ensures src.None? ==> r == Ok(None)
    ensures src.Some? && src.value.Literal? && !src.value.v.Null? ==> r == Ok(Some(src.value.v))
    ensures r.Ok? && r.value.Some? ==> !r.value.value.Null?
  {
    match src
    case None => Ok(None)
    case Some(s) =>
      var v :- Resolve(s, env, scope);
      if v.Null? then Ok(None) else Ok(Some(v))
  }

  // ---------------------------------------------------------------------------
  // Value matching

  /** The list branch: scan in order; on a type mismatch both sides are passed
      through `str()`, and the converted current value is kept for the rest of
      the scan. Found means matching, or not matching when negated. */
  function ListScan(toStr: Val -> string, current: Val, elems: seq<Val>, negate: bool): (r: bool)
    ensures |elems| == 0 ==> r == negate
    ensures |elems| > 0 && LooseEq(toStr, current, elems[0]) ==> r == !negate
    decreases |elems|
  {
    if |elems| == 0 then negate
    else
      var mismatch := KindOf(elems[0]) != KindOf(current);
      var element := if mismatch then Str(toStr(elems[0])) else elems[0];
      var cur := if mismatch then Str(toStr(current)) else current;
      if cur == element then !negate
      else ListScan(toStr, cur, elems[1..], negate)
  }

  /** Invariant of the scan: the running value is the original current value,
      or its string form. */
  lemma {:induction false} ListScanFrom(toStr: Val -> string, orig: Val, cur: Val, elems: seq<Val>, negate: bool)
    requires StrIsIdentityOnStrings(toStr) && StrSeparatesSameKind(toStr)
    requires cur == orig || cur == Str(toStr(orig))
    ensures ListScan(toStr, cur, elems, negate) == (negate != exists i :: 0 <= i < |elems| && LooseEq(toStr, orig, elems[i]))
    decreases |elems|
  {
    if |elems| > 0 {
      var e := elems[0];
      assert toStr(cur) == toStr(orig);
      var mismatch := KindOf(e) != KindOf(cur);
      var element := if mismatch then Str(toStr(e)) else e;
      var cur' := if mismatch then Str(toStr(cur)) else cur;
      assert (cur' == element) == LooseEq(toStr, orig, e);
      ListScanFrom(toStr, orig, cur', elems[1..], negate);
      assert forall i :: 1 <= i < |elems| ==> elems[i] == elems[1..][i - 1];
      if !(cur' == element) {
        assert (exists i :: 0 <= i < |elems| && LooseEq(toStr, orig, elems[i]))
          == (exists i :: 0 <= i < |elems| - 1 && LooseEq(toStr, orig, elems[1..][i]));
      }
    }
  }

  /** With a `str()` that is the identity on strings and tells apart different
      values of one type, the list branch is plain membership under the
      coercing equality, inverted by negate: keeping the converted current
      value between elements makes no difference. */
  lemma ListScanIsMembership(toStr: Val -> string, current: Val, elems: seq<Val>, negate: bool)
    requires StrIsIdentityOnStrings(toStr) && StrSeparatesSameKind(toStr)
    ensures ListScan(toStr, current, elems, negate) == (negate != exists i :: 0 <= i < |elems| && LooseEq(toStr, current, elems[i]))
  {
    ListScanFrom(toStr, current, current, elems, negate);
  }

  /** Some element equals the current value under the coercing equality. */
  predicate LooseMember(toStr: Val -> string, current: Val, elems: seq<Val>) {
    exists i :: 0 <= i < |elems| && LooseEq(toStr, current, elems[i])
  }

  /** `ListScanIsMembership` for any `str()`, guarded by its two facts. */
  lemma ListScanMembershipWhen(toStr: Val -> string, current: Val, elems: seq<Val>, negate: bool)
    ensures StrIsIdentityOnStrings(toStr) && StrSeparatesSameKind(toStr) ==>
      ListScan(toStr, current, elems, negate) == (negate != LooseMember(toStr, current, elems))
  {
    if StrIsIdentityOnStrings(toStr) && StrSeparatesSameKind(toStr) {
      ListScanIsMembership(toStr, current, elems, negate);
    }
  }

  /** The scalar branch: equality after the string-coercion fallback, inverted by negate. */
  function ScalarMatch(toStr: Val -> string, current: Val, value: Val, negate: bool): (r: bool)
    ensures r == (negate != LooseEq(toStr, current, value))
  {
    var mismatch := KindOf(value) != KindOf(current);
    var v := if mismatch then Str(toStr(value)) else value;
    var cur := if mismatch then Str(toStr(current)) else current;
    if negate then cur != v else cur == v
  }

  // ---------------------------------------------------------------------------
  // Range matching (shared by min/max and agemin/agemax)

  predicate WithinClosed(c: int, lo: Option<int>, hi: Option<int>) {
    (lo.None? || lo.value <= c) && (hi.None? || c <= hi.value)
  }

  /** Strictly between the configured bounds (an absent bound is no constraint,
      but at least one bound must be present). */
  predicate StrictlyInside(c: int, lo: Option<int>, hi: Option<int>) {
    (lo.Some? || hi.Some?) && (lo.None? || lo.value < c) && (hi.None? || c < hi.value)
  }

  /** Reference semantics of the range rule on numbers: without negation the
      closed interval; with negation everything except the open interior, so a
      value on a bound matches both ways. */
  predicate RangeSemantics(c: int, lo: Option<int>, hi: Option<int>, negate: bool) {
    if negate then !StrictlyInside(c, lo, hi) else WithinClosed(c, lo, hi)
  }

  predicate NumBound(b: Option<Val>) {
    b.None? || b.value.Num?
  }

  function IntBound(b: Option<Val>): Option<int>
    requires NumBound(b)
  {
    if b.None? then None else Some(b.value.n)
  }

  /** The same rule on strings, ordered by Python's string `<`. */
  predicate StrRangeSemantics(c: string, lo: Option<string>, hi: Option<string>, negate: bool) {
    if negate then
      !((lo.Some? || hi.Some?) && (lo.None? || LexLess(lo.value, c)) && (hi.None? || LexLess(c, hi.value)))
    else
      (lo.None? || !LexLess(c, lo.value)) && (hi.None? || !LexLess(hi.value, c))
  }

  predicate NumericBound(b: Option<Val>) {
    b.None? || IsNumeric(b.value)
  }

  /** A numeric bound as an integer, a bool counting as 0/1. */
  function NumericInt(b: Option<Val>): Option<int>
    requires NumericBound(b)
  {
    if b.None? then None else Some(NumericValue(b.value))
  }

  predicate StrBound(b: Option<Val>) {
    b.None? || b.value.Str?
  }

  function StrOf(b: Option<Val>): Option<string>
    requires StrBound(b)
  {
    if b.None? then None else Some(b.value.s)
  }

  /** The range rule with Python's short-circuit evaluation order; a
      comparison between unrelated types raises. */
  function RangeCheck(current: Val, lo: Option<Val>, hi: Option<Val>, negate: bool): (r: Result<bool>)
    ensures lo.None? && hi.None? ==> r == Ok(true)
    ensures current.Num? && NumBound(lo) && NumBound(hi) ==>
      r == Ok(RangeSemantics(current.n, IntBound(lo), IntBound(hi), negate))
    ensures IsNumeric(current) && NumericBound(lo) && NumericBound(hi) ==>
      r == Ok(RangeSemantics(NumericValue(current), NumericInt(lo), NumericInt(hi), negate))
    ensures current.Str? && StrBound(lo) && StrBound(hi) ==>
      r == Ok(StrRangeSemantics(current.s, StrOf(lo), StrOf(hi), negate))
    ensures (lo.Some? || hi.Some?) && !IsNumeric(current) && !current.Str? ==> r.Err?
  {
    match (lo, hi)
    case (None, None) => Ok(true)
    case (Some(l), None) =>
      if !negate then
        var tooLow :- Less(current, l);
        Ok(!tooLow)
      else
        var aboveMin :- Less(l, current);
        Ok(!aboveMin)
    case (None, Some(h)) =>
      if !negate then
        var tooHigh :- Less(h, current);
        Ok(!tooHigh)
      else
        var belowMax :- Less(current, h);
        Ok(!belowMax)
    case (Some(l), Some(h)) =>
      if !negate then
        var tooLow :- Less(current, l);
        if tooLow then Ok(false)
        else
          var tooHigh :- Less(h, current);
          Ok(!tooHigh)
      else
        // both failure tests evaluate `current > min` and `current < max`
        var aboveMin :- Less(l, current);
        var belowMax :- Less(current, h);
        Ok(!(aboveMin && belowMax))
  }

  /** A one-point range admits exactly its point; negated, it admits every
      value, as nothing lies strictly inside it. */
  lemma OnePointRange(c: int, v: int)
    ensures RangeSemantics(c, Some(v), Some(v), false) <==> c == v
    ensures RangeSemantics(c, Some(v), Some(v), true)
  {
  }

  /** A string equal to both bounds matches with and without negate: the
      range tests never find it below or above itself. */
  lemma StringOnBothBoundsMatches(s: string, negate: bool)
    ensures RangeCheck(Str(s), Some(Str(s)), Some(Str(s)), negate) == Ok(true)
  {
    LessIrreflexive(Str(s));
  }

  /** A value sitting exactly on a bound of a well-ordered range matches
      whether or not the condition is negated. */
  lemma BoundaryMatchesBothWays(c: int, lo: Option<int>, hi: Option<int>)
    requires lo.Some? || hi.Some?
    requires lo.Some? && hi.Some? ==> lo.value <= hi.value
    requires (lo.Some? && c == lo.value) || (hi.Some? && c == hi.value)
    ensures RangeSemantics(c, lo, hi, false) && RangeSemantics(c, lo, hi, true)
  {
  }

  // ---------------------------------------------------------------------------
  // The check

  /** `__check_value`: a configured value (scalar or list) wins over min/max. */
  function CheckValue(c: Condition, current: Val, env: Env, scope: Scope): (r: Result<bool>)
    ensures c.value.Some? && c.value.value.Literal? && !c.value.value.v.List? ==>
      r == Ok(Truthy(c.negate) != LooseEq(env.toStr, current, c.value.value.v))
    ensures (&& c.value.Some? && c.value.value.Literal? && c.value.value.v.List?
             && StrIsIdentityOnStrings(env.toStr) && StrSeparatesSameKind(env.toStr)) ==>
      r == Ok(Truthy(c.negate) != LooseMember(env.toStr, current, c.value.value.v.items))
    ensures c.value.None? && c.min.None? && c.max.None? ==> r == Ok(true)
    ensures c.value.None? && current.Num? && LiteralNum(c.min) && LiteralNum(c.max) ==>
      r == Ok(RangeSemantics(current.n, LiteralInt(c.min), LiteralInt(c.max), Truthy(c.negate)))
  {
    if c.value.Some? then
      var v :- Resolve(c.value.value, env, scope);
      if v.List? then
        ListScanMembershipWhen(env.toStr, current, v.items, Truthy(c.negate));
        Ok(ListScan(env.toStr, current, v.items, Truthy(c.negate)))
      else Ok(ScalarMatch(env.toStr, current, v, Truthy(c.negate)))
    else
      var lo :- ResolveOpt(c.min, env, scope);
      var hi :- ResolveOpt(c.max, env, scope);
      RangeCheck(current, lo, hi, Truthy(c.negate))
  }

  /** When a value is configured, min and max play no part. */
  lemma ValueIgnoresRange(c: Condition, current: Val, env: Env, scope: Scope, lo: Option<Source>, hi: Option<Source>)
    requires c.value.Some?
    ensures CheckValue(c, current, env, scope) == CheckValue(c.(min := lo, max := hi), current, env, scope)
  {
  }

  predicate LiteralNum(b: Option<Source>) {
    b.None? || (b.value.Literal? && b.value.v.Num?)
  }

  function LiteralInt(b: Option<Source>): Option<int>
    requires LiteralNum(b)
  {
    if b.None? then None else Some(b.value.v.n)
  }

  /** `__check_age`: the range rule applied to the bound item's age. */
  function CheckAge(c: Condition, env: Env, scope: Scope): (r: Result<bool>)
    ensures !HasAgeBounds(c) || c.item.None? ==> r == Ok(true)
    ensures HasAgeBounds(c) && c.item.Some? && LiteralNum(c.agemin) && LiteralNum(c.agemax) ==>
      r == Ok(RangeSemantics(env.age(c.item.value), LiteralInt(c.agemin), LiteralInt(c.agemax), Truthy(c.agenegate)))
  {
    if !HasAgeBounds(c) then Ok(true)
    else if c.item.None? then Ok(true)
    else
      var age := env.age(c.item.value);
      var lo :- ResolveOpt(c.agemin, env, scope);
      var hi :- ResolveOpt(c.agemax, env, scope);
      RangeCheck(Num(age), lo, hi, Truthy(c.agenegate))
  }

  /** `check`: fail-open on a recorded error or a missing binding, otherwise
      value match and then age match. `Err` is an exception raised during the
      check. */
  function Check(c: Condition, env: Env, scope: Scope): (r: Result<bool>)
    ensures c.error.Some? ==> r == Ok(true)
    ensures !Bound(c) ==> r == Ok(true)
    ensures c.error.None? && Bound(c) ==>
      (r == Ok(true) <==>
        Current(c, env, scope).Ok?
        && CheckValue(c, Current(c, env, scope).value, env, scope) == Ok(true)
        && CheckAge(c, env, scope) == Ok(true))
    ensures (c.error.None? && Bound(c) && Current(c, env, scope).Ok?
             && CheckValue(c, Current(c, env, scope).value, env, scope) == Ok(false)) ==> r == Ok(false)
  {
    if c.error.Some? then Ok(true)
    else if !Bound(c) then Ok(true)
    else
      var current :- Current(c, env, scope);
      var valueOk :- CheckValue(c, current, env, scope);
      if !valueOk then Ok(false) else CheckAge(c, env, scope)
  }

  /** A condition whose completion recorded an error is inert: it matches
      whatever the live data. */
  lemma FailedCompletionIsFailOpen(c: Condition, ctx: CompleteCtx, env: Env, scope: Scope)
    requires Complete(c, ctx).Raised? && Complete(c, ctx).cond.error.Some?
    ensures Check(Complete(c, ctx).cond, env, scope) == Ok(true)
  {
  }
}

=== FILE: controller.dfy ===
/** The controlled item (`AbItem`): its record of states, last state, lock,
    suspension and variables, and the update cycle `update_state` as a pure
    step from one record to the next plus the ordered list of effects. */
module Controller {
  import opened Results
  import opened Values
  import opened Conditions
  import opened States

  /** Settings fixed when the item is set up. */
  datatype Config = Config(
    itemId: string,
    pluginId: string,               // the caller name the plugin writes with
    lockedText: string,             // last-state name shown while locked
    suspendedText: int -> string,   // last-state name shown while suspended, from the end time
    repeatActions: bool,
    suspendTime: Val,
    laststateIdItem: Option<string>,
    laststateNameItem: Option<string>,
    lockItem: Option<string>)

  /** The mutable part of the item. `stuckSince` is 0 when the current state
      could be left at the last cycle, else the time it first could not. */
  datatype Ctl = Ctl(
    states: seq<State>,
    laststateId: string,
    laststateName: string,
    suspendUntil: Option<int>,
    stuckSince: int,
    delay: int,
    startupOver: bool,
    inProgress: bool,
    vars: map<string, Val>,
    trigger: Provenance,
    original: Provenance)

  /** Effects of a cycle, in the order the source performs them. */
  datatype Event =
    | RunStay(state: string, repeat: bool)
    | RunLeave(state: string, repeat: bool)
    | RunEnter(state: string, repeat: bool)
    | Write(item: string, value: Val)

  datatype Cycle = Cycle(ctl: Ctl, events: seq<Event>)

  /** The fields an evaluated cycle never touches. */
  predicate SameSetup(a: Ctl, b: Ctl) {
    && a.states == b.states && a.suspendUntil == b.suspendUntil
    && a.startupOver == b.startupOver && a.inProgress == b.inProgress
    && a.trigger == b.trigger && a.original == b.original
  }

  const SuspendTimeVar := "item.suspend_time"
  const SuspendRemainingVar := "item.suspend_remaining"
  const StateIdVar := "current.state_id"
  const StateNameVar := "current.state_name"

  // ---------------------------------------------------------------------------
  // Variables

  lemma VarNamesDistinct()
    ensures SuspendTimeVar != StateIdVar && SuspendTimeVar != StateNameVar
    ensures SuspendRemainingVar != StateIdVar && SuspendRemainingVar != StateNameVar
    ensures SuspendTimeVar != SuspendRemainingVar && StateIdVar != StateNameVar
  {
    assert SuspendTimeVar[0] == 'i' && SuspendRemainingVar[0] == 'i';
    assert StateIdVar[0] == 'c' && StateNameVar[0] == 'c';
    assert SuspendTimeVar[13] == 't' && SuspendRemainingVar[13] == 'r';
    assert StateIdVar[14] == 'i' && StateNameVar[14] == 'n';
  }

  /** The variable table right after set-up: the suspension time, no time
      remaining and no state being checked. */
  function InitialVars(suspendTime: Val): (r: map<string, Val>)
    ensures r.Keys == {SuspendTimeVar, SuspendRemainingVar, StateIdVar, StateNameVar}
    ensures r[SuspendTimeVar] == suspendTime && r[SuspendRemainingVar] == Num(0)
    ensures r[StateIdVar] == Str("") && r[StateNameVar] == Str("")
  {
    VarNamesDistinct();
    map[SuspendTimeVar := suspendTime, SuspendRemainingVar := Num(0), StateIdVar := Str(""), StateNameVar := Str("")]
  }

  /** `get_variable`: the value, or a placeholder text for an unknown name. */
  function GetVariable(vars: map<string, Val>, name: string): (r: Val)
    ensures name in vars ==> r == vars[name]
    ensures name !in vars ==> r == Str("(Unknown variable '" + name + "'!)")
  {
    if name in vars then vars[name] else Str("(Unknown variable '" + name + "'!)")
  }

  /** `set_variable`: only known names can be set. */
  function SetVariable(vars: map<string, Val>, name: string, value: Val): (r: Result<map<string, Val>>)
    ensures r.Err? <==> name !in vars
    ensures r.Ok? ==> r.value.Keys == vars.Keys
  {
    if name !in vars then Err("Unknown variable '" + name + "!") else Ok(vars[name := value])
  }

  /** Setting then getting a variable returns the value set, and no other
      variable changes. */
  lemma SetThenGet(vars: map<string, Val>, name: string, value: Val, other: string)
    requires name in vars
    ensures SetVariable(vars, name, value).Ok?
    ensures GetVariable(SetVariable(vars, name, value).value, name) == value
    ensures other != name ==>
      GetVariable(SetVariable(vars, name, value).value, other) == GetVariable(vars, other)
  {
  }

  /** The variables while one state is being checked. */
  function Scoped(vars: map<string, Val>, s: State): (r: map<string, Val>)
    ensures r.Keys == vars.Keys + {StateIdVar, StateNameVar}
    ensures r[StateIdVar] == Str(s.id) && r[StateNameVar] == Str(s.name)
    ensures forall k :: k in vars && k != StateIdVar && k != StateNameVar ==> r[k] == vars[k]
  {
    vars[StateIdVar := Str(s.id)][StateNameVar := Str(s.name)]
  }

  /** The variables once a check is over: both state variables are "". */
  function Cleared(vars: map<string, Val>): (r: map<string, Val>)
    ensures r.Keys == vars.Keys + {StateIdVar, StateNameVar}
    ensures r[StateIdVar] == Str("") && r[StateNameVar] == Str("")
    ensures forall k :: k in vars && k != StateIdVar && k != StateNameVar ==> r[k] == vars[k]
  {
    vars[StateIdVar := Str("")][StateNameVar := Str("")]
  }

  // ---------------------------------------------------------------------------
  // Last state, lock, suspension

  /** `__laststate_get`: the first state whose id is the stored id. */
  function LaststateGet(states: seq<State>, id: string): (r: Option<State>)
    ensures r.Some? ==> r.value in states && r.value.id == id
    ensures r.Some? ==> exists i :: (0 <= i < |states| && states[i] == r.value
      && forall j :: 0 <= j < i ==> states[j].id != id)
    ensures r.None? <==> forall i :: 0 <= i < |states| ==> states[i].id != id
    decreases |states|
  {
    if |states| == 0 then None
    else if states[0].id == id then Some(states[0])
    else
      var r := LaststateGet(states[1..], id);
      assert r.Some? ==> states[1..] == states[1..] && r.value in states;
      r
  }

  /** `__laststate_set`: remember id and display text. */
  function LaststateSet(ctl: Ctl, s: State): (r: Ctl)
    ensures r.laststateId == s.id && r.laststateName == Text(s)
    ensures r.(laststateId := ctl.laststateId, laststateName := ctl.laststateName) == ctl
  {
    ctl.(laststateId := s.id, laststateName := Text(s))
  }

  /** The item writes `__laststate_set` performs: the id to the id item,
      then the text to the name item, each only when that item is configured. */
  function LaststateWrites(cfg: Config, s: State): (r: seq<Event>)
    ensures |r| == (if cfg.laststateIdItem.Some? then 1 else 0) + (if cfg.laststateNameItem.Some? then 1 else 0)
    ensures forall e :: e in r ==> e.Write?
    ensures cfg.laststateIdItem.Some? ==> r[0] == Write(cfg.laststateIdItem.value, Str(s.id))
    ensures cfg.laststateNameItem.Some? ==> r[|r| - 1] == Write(cfg.laststateNameItem.value, Str(Text(s)))
  {
    (if cfg.laststateIdItem.Some? then [Write(cfg.laststateIdItem.value, Str(s.id))] else [])
      + (if cfg.laststateNameItem.Some? then [Write(cfg.laststateNameItem.value, Str(Text(s)))] else [])
  }

  /** `__lock_is_active`: the lock item's value, taken as a condition. */
  function LockIsActive(cfg: Config, env: Env): (r: bool)
    ensures cfg.lockItem.None? ==> !r
    ensures cfg.lockItem.Some? ==> (r <==> Truthy(env.read(cfg.lockItem.value)))
  {
    cfg.lockItem.Some? && Truthy(env.read(cfg.lockItem.value))
  }

  /** Active whenever an end time is set, whether or not it has passed. */
  function SuspendIsActive(ctl: Ctl): (r: bool)
    ensures r <==> ctl.suspendUntil.Some?
  {
    ctl.suspendUntil.Some?
  }

  // ---------------------------------------------------------------------------
  // Checking states

  /** What conditions see of the item during a cycle. */
  function ScopeOf(cfg: Config, ctl: Ctl): Scope {
    Scope(ctl.vars, cfg.laststateIdItem, ctl.laststateId, ctl.delay, ctl.trigger, ctl.original)
  }

  /** `__update_check_can_leave`: `can_leave` with the state variables set. */
  function CanLeaveChecked(s: State, env: Env, sc: Scope): (r: bool)
    ensures r <==> |s.leave| == 0 || (exists i :: 0 <= i < |s.leave|
                                       && AllHold(s.leave[i].conditions, env, sc.(vars := Scoped(sc.vars, s))))
  {
    CanLeave(s, env, sc.(vars := Scoped(sc.vars, s)))
  }

  /** `__update_check_can_enter`: `can_enter` with the state variables set. */
  function CanEnterChecked(s: State, env: Env, sc: Scope): (r: bool)
    ensures r <==> |s.enter| == 0 || (exists i :: 0 <= i < |s.enter|
                                       && AllHold(s.enter[i].conditions, env, sc.(vars := Scoped(sc.vars, s))))
  {
    CanEnter(s, env, sc.(vars := Scoped(sc.vars, s)))
  }

  /** Whatever the state variables held before a check, the checked state's
      own id and name replace them, so they cannot influence the result. */
  lemma CheckIgnoresStaleStateVars(s: State, env: Env, sc: Scope, staleId: Val, staleName: Val)
    ensures var stale := sc.(vars := sc.vars[StateIdVar := staleId][StateNameVar := staleName]);
      && CanEnterChecked(s, env, stale) == CanEnterChecked(s, env, sc)
      && CanLeaveChecked(s, env, stale) == CanLeaveChecked(s, env, sc)
  {
    VarNamesDistinct();
    var stale := sc.vars[StateIdVar := staleId][StateNameVar := staleName];
    assert Scoped(stale, s) == Scoped(sc.vars, s);
  }

  /** The scan for a new state: the first enterable state from `from` on. */
  function FirstEnterable(states: seq<State>, env: Env, sc: Scope, from: nat): (r: Option<nat>)
    requires from <= |states|
    ensures r.Some? ==> from <= r.value < |states| && CanEnterChecked(states[r.value], env, sc)
    ensures r.Some? ==> forall j :: from <= j < r.value ==> !CanEnterChecked(states[j], env, sc)
    ensures r.None? ==> forall j :: from <= j < |states| ==> !CanEnterChecked(states[j], env, sc)
    decreases |states| - from
  {
    if from == |states| then None
    else if CanEnterChecked(states[from], env, sc) then Some(from)
    else FirstEnterable(states, env, sc, from + 1)
  }

  /** Which way the cycle goes. */
  datatype Decision = Stuck(last: State) | Enter(index: nat) | NoCandidate

  function Decide(states: seq<State>, last: Option<State>, env: Env, sc: Scope): (r: Decision)
    ensures r.Stuck? <==> last.Some? && !CanLeaveChecked(last.value, env, sc)
    ensures r.Stuck? ==> r.last == last.value
    ensures r.Enter? ==> r.index < |states| && CanEnterChecked(states[r.index], env, sc)
    ensures r.Enter? ==> forall j :: 0 <= j < r.index ==> !CanEnterChecked(states[j], env, sc)
    ensures r.NoCandidate? ==> forall j :: 0 <= j < |states| ==> !CanEnterChecked(states[j], env, sc)
  {
    if last.Some? && !CanLeaveChecked(last.value, env, sc) then Stuck(last.value)
    else
      match FirstEnterable(states, env, sc, 0)
      case Some(i) => Enter(i)
      case None => NoCandidate
  }

  // ---------------------------------------------------------------------------
  // The update cycle

  /** The re-persist test of the stay branch as the source intends it: the
      stored name is the display text written by `__laststate_set`. */
  predicate StayNeedsPersist(ctl: Ctl, s: State) {
    ctl.laststateName != Text(s)
  }

  /** Actions and persistence once the new state is known. */
  function Persist(cfg: Config, ctl: Ctl, next: State, last: Option<State>): (r: Cycle)
    requires last.Some? ==> last.value.id == ctl.laststateId
    ensures r.ctl.laststateId == next.id
    ensures r.ctl.stuckSince == ctl.stuckSince && r.ctl.vars == ctl.vars
    ensures SameSetup(r.ctl, ctl)
    ensures last.Some? && next.id == last.value.id ==>
      r.events == [RunStay(next.id, cfg.repeatActions)]
        + (if StayNeedsPersist(ctl, next) then LaststateWrites(cfg, next) else [])
    ensures last.None? || next.id != last.value.id ==>
      && r.events == (if last.Some? then [RunLeave(last.value.id, cfg.repeatActions)] else [])
        + [RunEnter(next.id, cfg.repeatActions)] + LaststateWrites(cfg, next)
      && r.ctl == LaststateSet(ctl, next)
  {
    if last.Some? && next.id == last.value.id then
      var stay := [RunStay(next.id, cfg.repeatActions)];
      if StayNeedsPersist(ctl, next) then Cycle(LaststateSet(ctl, next), stay + LaststateWrites(cfg, next))
      else Cycle(ctl, stay)
    else
      var leave := if last.Some? then [RunLeave(last.value.id, cfg.repeatActions)] else [];
      Cycle(LaststateSet(ctl, next), leave + [RunEnter(next.id, cfg.repeatActions)] + LaststateWrites(cfg, next))
  }

  /** The record as the conditions see it: suspension variables refreshed
      and the delay measured from `stuckSince`. */
  function Prepared(cfg: Config, ctl: Ctl, now: int): (r: Ctl)
    ensures SuspendTimeVar in r.vars && r.vars[SuspendTimeVar] == cfg.suspendTime
    ensures SuspendRemainingVar in r.vars && r.vars[SuspendRemainingVar] == Num(-1)
    ensures r.delay == (if ctl.stuckSince == 0 then 0 else now - ctl.stuckSince)
  {
    ctl.(vars := ctl.vars[SuspendTimeVar := cfg.suspendTime][SuspendRemainingVar := Num(-1)],
         delay := if ctl.stuckSince == 0 then 0 else now - ctl.stuckSince)
  }

  /** The part of `update_state` after the guards: evaluate, decide, act. */
  function Evaluate(cfg: Config, ctl: Ctl, env: Env, now: int): (r: Cycle)
    ensures SameSetup(r.ctl, ctl)
    ensures |ctl.states| > 0 ==> StateIdVar in r.ctl.vars && r.ctl.vars[StateIdVar] == Str("")
    ensures |ctl.states| > 0 ==> StateNameVar in r.ctl.vars && r.ctl.vars[StateNameVar] == Str("")
    ensures SuspendRemainingVar in r.ctl.vars && r.ctl.vars[SuspendRemainingVar] == Num(-1)
  {
    VarNamesDistinct();
    var prepared := Prepared(cfg, ctl, now);
    var sc := ScopeOf(cfg, prepared);
    var last := LaststateGet(ctl.states, ctl.laststateId);
    var checked := prepared.(vars := if last.Some? || |ctl.states| > 0 then Cleared(prepared.vars) else prepared.vars);
    match Decide(ctl.states, last, env, sc)
    case Stuck(s) =>
      var since := if ctl.stuckSince == 0 then now else ctl.stuckSince;
      var since' := if CanEnter(s, env, sc.(vars := checked.vars)) then 0 else since;
      Persist(cfg, checked.(stuckSince := since'), s, last)
    case Enter(i) =>
      Persist(cfg, checked.(stuckSince := 0), ctl.states[i], last)
    case NoCandidate =>
      Cycle(checked, if last.Some? then [RunStay(last.value.id, cfg.repeatActions)] else [])
  }

  /** `update_state`: one trigger of the controlled item. `original` is the
      provenance the host reports as having started the trigger chain. */
  function Step(cfg: Config, ctl: Ctl, env: Env, call: Provenance, original: Provenance, now: int): (r: Cycle)
    ensures r.ctl.inProgress == ctl.inProgress
    ensures r.ctl.states == ctl.states
    ensures r.ctl.suspendUntil == ctl.suspendUntil && r.ctl.startupOver == ctl.startupOver
  {
    if ctl.inProgress || !ctl.startupOver then Cycle(ctl, [])
    else if original.caller == Str(cfg.pluginId) || call.caller == Str(cfg.pluginId) then Cycle(ctl, [])
    else
      var recorded := ctl.(trigger := call, original := original);
      if LockIsActive(cfg, env) then Cycle(recorded.(laststateName := cfg.lockedText), [])
      else if SuspendIsActive(recorded) then
        Cycle(recorded.(laststateName := cfg.suspendedText(recorded.suspendUntil.value)), [])
      else Evaluate(cfg, recorded, env, now)
  }

  /** The record passed to `Evaluate` by a trigger that passes the guards. */
  function Recorded(ctl: Ctl, call: Provenance, original: Provenance): Ctl {
    ctl.(trigger := call, original := original)
  }

  // ---------------------------------------------------------------------------
  // Properties of the update cycle

  /** A trigger during an update or before the start-up delay is over changes nothing. */
  lemma BusyOrStartingIsIgnored(cfg: Config, ctl: Ctl, env: Env, call: Provenance, original: Provenance, now: int)
    requires ctl.inProgress || !ctl.startupOver
    ensures Step(cfg, ctl, env, call, original, now) == Cycle(ctl, [])
  {
  }

  /** Changes the plugin made itself, directly or at the start of the
      trigger chain, change nothing. */
  lemma OwnChangesAreIgnored(cfg: Config, ctl: Ctl, env: Env, call: Provenance, original: Provenance, now: int)
    requires call.caller == Str(cfg.pluginId) || original.caller == Str(cfg.pluginId)
    ensures Step(cfg, ctl, env, call, original, now) == Cycle(ctl, [])
  {
  }

  predicate Admitted(cfg: Config, ctl: Ctl, call: Provenance, original: Provenance) {
    && !ctl.inProgress && ctl.startupOver
    && call.caller != Str(cfg.pluginId) && original.caller != Str(cfg.pluginId)
  }

  /** A locked item records the trigger and the "locked" name and stops:
      no condition is evaluated and no action runs. */
  lemma LockStopsTheCycle(cfg: Config, ctl: Ctl, env: Env, call: Provenance, original: Provenance, now: int)
    requires Admitted(cfg, ctl, call, original) && LockIsActive(cfg, env)
    ensures Step(cfg, ctl, env, call, original, now)
      == Cycle(Recorded(ctl, call, original).(laststateName := cfg.lockedText), [])
  {
  }

  /** A suspended (and unlocked) item records the trigger and the suspension
      name and stops before any condition is evaluated. */
  lemma SuspendStopsTheCycle(cfg: Config, ctl: Ctl, env: Env, call: Provenance, original: Provenance, now: int)
    requires Admitted(cfg, ctl, call, original) && !LockIsActive(cfg, env) && SuspendIsActive(ctl)
    ensures Step(cfg, ctl, env, call, original, now)
      == Cycle(Recorded(ctl, call, original).(laststateName := cfg.suspendedText(ctl.suspendUntil.value)), [])
  {
  }

  /** Otherwise the cycle evaluates the states. */
  lemma AdmittedCycleEvaluates(cfg: Config, ctl: Ctl, env: Env, call: Provenance, original: Provenance, now: int)
    requires Admitted(cfg, ctl, call, original) && !LockIsActive(cfg, env) && !SuspendIsActive(ctl)
    ensures Step(cfg, ctl, env, call, original, now) == Evaluate(cfg, Recorded(ctl, call, original), env, now)
  {
  }

  /** The scope the states of a cycle are checked in. */
  function CycleScope(cfg: Config, ctl: Ctl, now: int): Scope {
    ScopeOf(cfg, Prepared(cfg, ctl, now))
  }

  /** A last state that cannot be left is kept: only its stay actions run,
      and `stuckSince` is set to `now` if it was 0, or cleared if the state
      could still be entered (checked without the state variables). */
  lemma CannotLeaveStays(cfg: Config, ctl: Ctl, env: Env, now: int, last: State)
    requires LaststateGet(ctl.states, ctl.laststateId) == Some(last)
    requires !CanLeaveChecked(last, env, CycleScope(cfg, ctl, now))
    ensures var r := Evaluate(cfg, ctl, env, now);
      && r.ctl.laststateId == ctl.laststateId
      && r.events[0] == RunStay(last.id, cfg.repeatActions)
      && (forall e :: e in r.events ==> !e.RunEnter? && !e.RunLeave?)
      && r.ctl.stuckSince ==
        (if CanEnter(last, env, CycleScope(cfg, ctl, now).(vars := r.ctl.vars)) then 0
         else if ctl.stuckSince == 0 then now else ctl.stuckSince)
  {
    var r := Evaluate(cfg, ctl, env, now);
    var sc := CycleScope(cfg, ctl, now);
    assert Decide(ctl.states, Some(last), env, sc) == Stuck(last);
    assert forall e :: e in LaststateWrites(cfg, last) ==> e.Write?;
  }

  /** When the last state can be left (or there is none), the first
      enterable state in declared order becomes the new last state;
      `stuckSince` is cleared. On a change, the old state's leave actions
      run before the new state's enter actions, then id and text are written. */
  lemma FirstEnterableWins(cfg: Config, ctl: Ctl, env: Env, now: int, i: nat)
    requires var last := LaststateGet(ctl.states, ctl.laststateId);
      last.None? || CanLeaveChecked(last.value, env, CycleScope(cfg, ctl, now))
    requires i < |ctl.states| && CanEnterChecked(ctl.states[i], env, CycleScope(cfg, ctl, now))
    requires forall j :: 0 <= j < i ==> !CanEnterChecked(ctl.states[j], env, CycleScope(cfg, ctl, now))
    ensures var r := Evaluate(cfg, ctl, env, now);
      var last := LaststateGet(ctl.states, ctl.laststateId);
      var next := ctl.states[i];
      && r.ctl.laststateId == next.id
      && r.ctl.stuckSince == 0
      && (last.None? || next.id != last.value.id ==>
          && r.events == (if last.Some? then [RunLeave(last.value.id, cfg.repeatActions)] else [])
               + [RunEnter(next.id, cfg.repeatActions)] + LaststateWrites(cfg, next)
          && r.ctl.laststateName == Text(next))
  {
    var sc := CycleScope(cfg, ctl, now);
    var last := LaststateGet(ctl.states, ctl.laststateId);
    var d := Decide(ctl.states, last, env, sc);
    assert d.Enter?;
  }

  /** With no enterable state the last state's stay actions run, or nothing
      at all when there is no last state; the last state is unchanged. */
  lemma NoCandidateKeepsLastState(cfg: Config, ctl: Ctl, env: Env, now: int)
    requires var last := LaststateGet(ctl.states, ctl.laststateId);
      last.None? || CanLeaveChecked(last.value, env, CycleScope(cfg, ctl, now))
    requires forall j :: 0 <= j < |ctl.states| ==> !CanEnterChecked(ctl.states[j], env, CycleScope(cfg, ctl, now))
    ensures var r := Evaluate(cfg, ctl, env, now);
      var last := LaststateGet(ctl.states, ctl.laststateId);
      && r.ctl.laststateId == ctl.laststateId
      && r.ctl.laststateName == ctl.laststateName
      && r.events == (if last.Some? then [RunStay(last.value.id, cfg.repeatActions)] else [])
  {
    var sc := CycleScope(cfg, ctl, now);
    var last := LaststateGet(ctl.states, ctl.laststateId);
    var d := Decide(ctl.states, last, env, sc);
    assert d.NoCandidate?;
  }

  /** The last state only ever changes to a state that was found enterable
      in this cycle. */
  lemma NewLastStateWasEnterable(cfg: Config, ctl: Ctl, env: Env, now: int)
    ensures var r := Evaluate(cfg, ctl, env, now);
      r.ctl.laststateId != ctl.laststateId ==>
        exists i :: 0 <= i < |ctl.states| && ctl.states[i].id == r.ctl.laststateId
          && CanEnterChecked(ctl.states[i], env, CycleScope(cfg, ctl, now))
  {
    var sc := CycleScope(cfg, ctl, now);
    var last := LaststateGet(ctl.states, ctl.laststateId);
    match Decide(ctl.states, last, env, sc)
    case Stuck(s) =>
    case Enter(i) =>
    case NoCandidate =>
  }

  /** Staying in a state already persisted with its text writes nothing
      and leaves the record as it was. */
  lemma StaySettles(cfg: Config, ctl: Ctl, s: State)
    ensures Persist(cfg, LaststateSet(ctl, s), s, Some(s))
      == Cycle(LaststateSet(ctl, s), [RunStay(s.id, cfg.repeatActions)])
  {
  }

  // ---------------------------------------------------------------------------
  // The stay branch's name comparison as written

  /** The re-persist test of the stay branch as written: the stored name,
      which `__laststate_set` fills with the state's text, is compared with
      the state's name. */
  predicate StayNeedsPersistAsWritten(ctl: Ctl, s: State) {
    ctl.laststateName != s.name
  }

  /** `Persist` with the stay branch's comparison as written. */
  function PersistAsWritten(cfg: Config, ctl: Ctl, next: State, last: Option<State>): (r: Cycle)
    requires last.Some? ==> last.value.id == ctl.laststateId
    ensures last.Some? && next.id == last.value.id ==>
      r.events == [RunStay(next.id, cfg.repeatActions)]
        + (if StayNeedsPersistAsWritten(ctl, next) then LaststateWrites(cfg, next) else [])
    ensures last.None? || next.id != last.value.id ==> r == Persist(cfg, ctl, next, last)
  {
    if last.Some? && next.id == last.value.id then
      var stay := [RunStay(next.id, cfg.repeatActions)];
      if StayNeedsPersistAsWritten(ctl, next) then Cycle(LaststateSet(ctl, next), stay + LaststateWrites(cfg, next))
      else Cycle(ctl, stay)
    else Persist(cfg, ctl, next, last)
  }

  /** As written, a state whose text differs from its name is re-persisted
      on every stay, even right after it was persisted, and the record it
      leaves behind is the same one, so the next stay writes again. */
  lemma AsWrittenNeverSettles(cfg: Config, ctl: Ctl, s: State)
    requires Text(s) != s.name
    requires cfg.laststateIdItem.Some? || cfg.laststateNameItem.Some?
    ensures var c := PersistAsWritten(cfg, LaststateSet(ctl, s), s, Some(s));
      && c.events == [RunStay(s.id, cfg.repeatActions)] + LaststateWrites(cfg, s)
      && |c.events| > 1
      && c.ctl == LaststateSet(ctl, s)
  {
  }

  /** A concrete case: a state "day" shown as "Day position" writes its
      last state again on a stay right after being persisted. */
  lemma AsWrittenExample(cfg: Config, ctl: Ctl)
    requires cfg.laststateNameItem.Some?
    ensures var s := State("day", "day", Some("Day position"), [], []);
      Write(cfg.laststateNameItem.value, Str("Day position"))
        in PersistAsWritten(cfg, LaststateSet(ctl, s), s, Some(s)).events
  {
    var s := State("day", "day", Some("Day position"), [], []);
    assert Text(s) == "Day position";
    assert Text(s)[0] != s.name[0];
    AsWrittenNeverSettles(cfg, ctl, s);
    var writes := LaststateWrites(cfg, s);
    assert writes[|writes| - 1] == Write(cfg.laststateNameItem.value, Str("Day position"));
  }

  // ---------------------------------------------------------------------------
  // Set-up and start-up

  /** `__init__` keeps the states that could be built and fails when none
      remain. */
  function KeepBuilt(built: seq<Result<State>>): (r: seq<State>)
    ensures |r| <= |built|
    ensures forall s :: s in r <==> Ok(s) in built
    decreases |built|
  {
    if |built| == 0 then []
    else
      var rest := KeepBuilt(built[1..]);
      assert forall s :: Ok(s) in built <==> Ok(s) == built[0] || Ok(s) in built[1..];
      match built[0]
      case Ok(s) => [s] + rest
      case Err(_) => rest
  }

  /** Building one more state appends it to the kept ones; a failed build
      adds nothing. So the kept states are the built ones in declared order. */
  lemma {:induction false} KeepBuiltConcat(a: seq<Result<State>>, b: seq<Result<State>>)
    ensures KeepBuilt(a + b) == KeepBuilt(a) + KeepBuilt(b)
    decreases |a|
  {
    if |a| > 0 {
      assert (a + b)[1..] == a[1..] + b;
      KeepBuiltConcat(a[1..], b);
    } else {
      assert a + b == b;
    }
  }

  lemma KeepBuiltAppend(built: seq<Result<State>>, x: Result<State>)
    ensures KeepBuilt(built + [x]) == KeepBuilt(built) + (if x.Ok? then [x.value] else [])
  {
    KeepBuiltConcat(built, [x]);
    assert [x][1..] == [];
  }

  function InitStates(itemId: string, built: seq<Result<State>>): (r: Result<seq<State>>)
    ensures r.Ok? <==> exists i :: 0 <= i < |built| && built[i].Ok?
    ensures r.Ok? ==> |r.value| > 0 && forall s :: s in r.value <==> Ok(s) in built
    ensures r.Ok? ==> r.value == KeepBuilt(built)
    ensures r.Err? ==> r.msg == itemId + ": No states defined!"
  {
    var states := KeepBuilt(built);
    if |states| == 0 then
      Err(itemId + ": No states defined!")
    else
      assert states[0] in states;
      Ok(states)
  }

  /** The record `__init__` sets up before the start-up decision.
      `storedId` and `storedName` are the values of the last-state items,
      which are only read when those items are configured. */
  function Initial(cfg: Config, states: seq<State>, storedId: string, storedName: string): (r: Ctl)
    ensures r.states == states && r.vars == InitialVars(cfg.suspendTime)
    ensures r.laststateId == (if cfg.laststateIdItem.Some? then storedId else "")
    ensures r.laststateName == (if cfg.laststateNameItem.Some? then storedName else "")
    ensures r.suspendUntil.None? && r.stuckSince == 0 && r.delay == 0
    ensures !r.startupOver && !r.inProgress
  {
    var none := Provenance(Null, Null, Null, Null);
    Ctl(states,
        if cfg.laststateIdItem.Some? then storedId else "",
        if cfg.laststateNameItem.Some? then storedName else "",
        None, 0, 0, false, false, InitialVars(cfg.suspendTime), none, none)
  }

  /** What a cycle writes to the last-state items is what a restart reads
      back: the new record's id and name are restored. */
  lemma PersistSurvivesRestart(cfg: Config, ctl: Ctl, s: State, states: seq<State>)
    requires cfg.laststateIdItem.Some? && cfg.laststateNameItem.Some?
    ensures var w := LaststateWrites(cfg, s);
      var c := LaststateSet(ctl, s);
      && w == [Write(cfg.laststateIdItem.value, Str(c.laststateId)),
               Write(cfg.laststateNameItem.value, Str(c.laststateName))]
      && var restarted := Initial(cfg, states, w[0].value.s, w[1].value.s);
         restarted.laststateId == c.laststateId && restarted.laststateName == c.laststateName
  {
  }

  /** No cycle removes a variable: the set-up variables can always be set. */
  lemma VariablesStayKnown(cfg: Config, ctl: Ctl, env: Env, call: Provenance, original: Provenance, now: int)
    ensures ctl.vars.Keys <= Step(cfg, ctl, env, call, original, now).ctl.vars.Keys
  {
  }

  /** How the start-up delay is handled: a positive delay schedules the
      start, -1 only registers the triggers, anything else starts at once. */
  datatype StartupPlan = ScheduleAfter(seconds: int) | TriggersOnly | RunNow

  /** `delay` is None when no start-up delay is configured. */
  function PlanStartup(delay: Option<int>): (r: StartupPlan)
    ensures r.ScheduleAfter? <==> delay.Some? && delay.value > 0
    ensures r.ScheduleAfter? ==> r.seconds == delay.value
    ensures r.TriggersOnly? <==> delay == Some(-1)
    ensures r.RunNow? <==> delay.None? || (delay.value <= 0 && delay.value != -1)
  {
    var d := delay.GetOr(0);
    if d > 0 then ScheduleAfter(d) else if d == -1 then TriggersOnly else RunNow
  }

  /** The trigger the start-up callback passes to `update_state`. */
  function StartupCall(cfg: Config): Provenance {
    Provenance(Str(cfg.itemId), Str("Startup Delay"), Null, Null)
  }

  /** `__startup_delay_callback`: mark start-up over and run one cycle
      triggered by "Startup Delay". */
  function StartupCallback(cfg: Config, ctl: Ctl, env: Env, original: Provenance, now: int): (r: Cycle)
    ensures r.ctl.startupOver
    ensures r == Step(cfg, ctl.(startupOver := true), env, StartupCall(cfg), original, now)
  {
    Step(cfg, ctl.(startupOver := true), env, StartupCall(cfg), original, now)
  }

  /** Unless an update is already running, the plugin started the chain, or
      the item is locked or suspended, the start-up callback evaluates the
      states, with the "Startup Delay" trigger recorded. */
  lemma StartupCallbackEvaluates(cfg: Config, ctl: Ctl, env: Env, original: Provenance, now: int)
    requires !ctl.inProgress && cfg.pluginId != "Startup Delay" && original.caller != Str(cfg.pluginId)
    requires !LockIsActive(cfg, env) && !SuspendIsActive(ctl)
    ensures StartupCallback(cfg, ctl, env, original, now)
      == Evaluate(cfg, Recorded(ctl.(startupOver := true), StartupCall(cfg), original), env, now)
  {
  }

  /** The end of `__init__`: the record after the start-up decision, the
      cycle it ran (if any), and the delay it scheduled (if any). */
  datatype Started = Started(cycle: Cycle, scheduled: Option<int>, triggersAdded: bool)

  function Startup(cfg: Config, ctl: Ctl, env: Env, delay: Option<int>, original: Provenance, now: int): (r: Started)
    ensures r.scheduled.Some? <==> PlanStartup(delay).ScheduleAfter?
    ensures r.scheduled.Some? ==> r.cycle == Cycle(ctl, []) && !r.triggersAdded
    ensures r.scheduled.None? ==> r.cycle.ctl.startupOver && r.triggersAdded
    ensures PlanStartup(delay).TriggersOnly? ==> r.cycle == Cycle(ctl.(startupOver := true), [])
    ensures PlanStartup(delay).RunNow? ==> r.cycle == StartupCallback(cfg, ctl, env, original, now)
  {
    match PlanStartup(delay)
    case ScheduleAfter(s) => Started(Cycle(ctl, []), Some(s), false)
    case TriggersOnly => Started(Cycle(ctl.(startupOver := true), []), None, true)
    case RunNow => Started(StartupCallback(cfg, ctl, env, original, now), None, true)
  }

  /** Until the scheduled start-up callback runs, every trigger is ignored. */
  lemma ScheduledStartupIgnoresTriggers(cfg: Config, ctl: Ctl, env: Env, delay: Option<int>, original: Provenance,
                                        now: int, call: Provenance, original': Provenance, t: int)
    requires !ctl.startupOver
    requires PlanStartup(delay).ScheduleAfter?
    ensures var c := Startup(cfg, ctl, env, delay, original, now).cycle.ctl;
      Step(cfg, c, env, call, original', t) == Cycle(c, [])
  {
  }
}

=== FILE: item_config.dfy ===
/** The configuration fix-ups `AbItem.__check_item_config` applies to the
    controlled item and to its scheduler job before the first update. */
module ItemConfig {
  import opened Results
  import opened Values

  /** The item attributes the check touches. */
  datatype ItemSettings = ItemSettings(enforceUpdates: bool, evalTrigger: seq<string>, eval: Option<string>)

  /** One scheduler entry: a key and its (possibly `None`) value, in the
      dictionary's insertion order. */
  type Entries = seq<(string, Val)>

  /** The item's scheduler job as far as the check reads it; `None` stands for
      both "no such key" and "key present with value None". */
  datatype Job = Job(cycle: Option<Entries>, cron: Option<Entries>)

  /** The arguments of `scheduler.change`. */
  datatype JobChange = JobChange(cycle: Option<(string, Val)>, cron: Option<Entries>)

  /** What the check decides: the new item settings and the scheduler change,
      if any. */
  datatype Outcome = Outcome(settings: ItemSettings, change: Option<JobChange>)

  /** The default injected into an empty cycle value. */
  const CycleDefault: Val := Str("1")
  /** The default injected into an empty cron value. */
  const CronDefault: Val := Num(1)

  function ItemFixups(item: ItemSettings): (r: ItemSettings)
    ensures r.enforceUpdates
    ensures r.evalTrigger == item.evalTrigger
    ensures r.eval == (if |item.evalTrigger| > 0 && item.eval.None? then Some("1") else item.eval)
  {
    var eval := if |item.evalTrigger| > 0 && item.eval.None? then Some("1") else item.eval;
    item.(enforceUpdates := true, eval := eval)
  }

  predicate HasNull(entries: Entries) {
    exists i :: 0 <= i < |entries| && entries[i].1 == Null
  }

  /** Cron entries with every `None` value replaced by the cron default. */
  function FillCron(entries: Entries): (r: Entries)
    ensures |r| == |entries|
    ensures forall i :: 0 <= i < |r| ==> r[i].0 == entries[i].0
    ensures forall i :: 0 <= i < |r| ==>
      r[i].1 == (if entries[i].1 == Null then CronDefault else entries[i].1)
    ensures !HasNull(r)
  {
    if |entries| == 0 then []
    else
      var (key, value) := entries[0];
      [(key, if value == Null then CronDefault else value)] + FillCron(entries[1..])
  }

  /** The first cycle entry with a `None` value replaced by the cycle default;
      Err for an empty cycle dictionary, where the source's `[0]` raises. */
  function FirstCycle(entries: Entries): (r: Result<(string, Val)>)
    ensures r.Err? <==> |entries| == 0
    ensures r.Ok? ==> r.value.0 == entries[0].0 && r.value.1 != Null
    ensures r.Ok? && entries[0].1 != Null ==> r.value == entries[0]
    ensures r.Ok? && entries[0].1 == Null ==> r.value == (entries[0].0, CycleDefault)
  {
    if |entries| == 0 then Err("list index out of range")
    else
      var (key, value) := entries[0];
      Ok((key, if value == Null then CycleDefault else value))
  }

  /** `__check_item_config`: item fix-ups always; a scheduler change only when
      a default had to be injected into the job's first cycle entry or into
      one of its cron entries. */
  function CheckItemConfig(item: ItemSettings, job: Option<Job>): (r: Result<Outcome>)
    ensures r.Err? <==> job.Some? && job.value.cycle == Some([])
    ensures r.Ok? ==> r.value.settings == ItemFixups(item)
    ensures job.None? ==> r == Ok(Outcome(ItemFixups(item), None))
    ensures r.Ok? && job.Some? ==> (r.value.change.Some? <==> NeedsDefaults(job.value))
    ensures r.Ok? && job.Some? && r.value.change.Some? ==>
      var ch := r.value.change.value;
      && (ch.cycle.Some? <==> job.value.cycle.Some?)
      && (ch.cycle.Some? ==> ch.cycle == Some(FirstCycle(job.value.cycle.value).value))
      && (ch.cron.Some? <==> job.value.cron.Some?)
      && (ch.cron.Some? ==> ch.cron.value == FillCron(job.value.cron.value))
  {
    var settings := ItemFixups(item);
    match job
    case None => Ok(Outcome(settings, None))
    case Some(j) =>
      var newCycle: Option<(string, Val)> :- match j.cycle
        case None => Ok(None)
        case Some(entries) =>
          var first :- FirstCycle(entries);
          Ok(Some(first));
      var newCron := match j.cron
        case None => None
        case Some(entries) => Some(FillCron(entries));
      var changed := (j.cycle.Some? && j.cycle.value[0].1 == Null)
        || (j.cron.Some? && HasNull(j.cron.value));
      Ok(Outcome(settings, if changed then Some(JobChange(newCycle, newCron)) else None))
  }

  /** A job needs a change when its first cycle value or any cron value is
      `None`. */
  predicate NeedsDefaults(job: Job) {
    || (job.cycle.Some? && |job.cycle.value| > 0 && job.cycle.value[0].1 == Null)
    || (job.cron.Some? && HasNull(job.cron.value))
  }

  /** The job the scheduler holds after `change(cycle=…, cron=…)`. */
  function Applied(change: JobChange): Job {
    Job(match change.cycle case None => None case Some(e) => Some([e]), change.cron)
  }

  /** Running the check again on the changed job and the fixed item changes
      nothing more. */
  lemma CheckIsIdempotent(item: ItemSettings, job: Job)
    requires CheckItemConfig(item, Some(job)).Ok?
    ensures var out := CheckItemConfig(item, Some(job)).value;
      var job' := if out.change.Some? then Applied(out.change.value) else job;
      && CheckItemConfig(out.settings, Some(job')).Ok?
      && CheckItemConfig(out.settings, Some(job')).value.settings == out.settings
      && CheckItemConfig(out.settings, Some(job')).value.change.None?
  {
    var out := CheckItemConfig(item, Some(job)).value;
    if out.change.Some? {
      var job' := Applied(out.change.value);
      assert !NeedsDefaults(job');
    }
  }
}

=== FILE: item_ids.dfy ===
/** Item ids relative to the controlled item (`AbItem.return_item`): an id
    with k leading dots keeps the first len(levels) - k + 1 dot-separated
    levels of the controlled item's id and appends the rest. */
module ItemIds {
  import opened Results

  /** Number of leading '.' characters. */
  function LeadingDots(s: string): (n: nat)
    ensures n <= |s|
    ensures forall i :: 0 <= i < n ==> s[i] == '.'
    ensures n < |s| ==> s[n] != '.'
    decreases |s|
  {
    if |s| > 0 && s[0] == '.' then 1 + LeadingDots(s[1..]) else 0
  }

  /** Python's `s.split(".")`: always at least one (possibly empty) level. */
  function Split(s: string): (r: seq<string>)
    ensures |r| >= 1
    ensures forall i :: 0 <= i < |r| ==> '.' !in r[i]
    decreases |s|
  {
    if |s| == 0 then [""]
    else if s[0] == '.' then [""] + Split(s[1..])
    else
      var rest := Split(s[1..]);
      [[s[0]] + rest[0]] + rest[1..]
  }

  /** Python's `".".join(levels)`. */
  function Dotted(levels: seq<string>): string
    requires |levels| >= 1
    decreases |levels|
  {
    if |levels| == 1 then levels[0] else levels[0] + "." + Dotted(levels[1..])
  }

  /** The joining loop of `return_item`: a level is appended with a dot only
      once the result is non-empty. */
  function JoinFrom(acc: string, levels: seq<string>): string
    decreases |levels|
  {
    if |levels| == 0 then acc
    else JoinFrom(if acc == "" then acc + levels[0] else acc + "." + levels[0], levels[1..])
  }

  function ResolvedPrefix(levels: seq<string>, count: nat): string
    requires count <= |levels|
  {
    JoinFrom("", levels[..count])
  }

  /** Decimal digits of a natural number, as `str()` prints it. */
  function Decimal(n: nat): (r: string)
    ensures |r| >= 1
    ensures forall i :: 0 <= i < |r| ==> '0' <= r[i] <= '9'
  {
    var digit := ['0' + (n % 10) as char];
    if n < 10 then digit else Decimal(n / 10) + digit
  }

  /** The id `return_item` computes for `itemId` relative to `selfId`, before
      the item is looked up; Err when more levels are removed than exist. */
  function ResolveItemId(selfId: string, itemId: string): (r: Result<string>)
    ensures LeadingDots(itemId) == 0 ==> r == Ok(itemId)
    ensures r.Err? <==> LeadingDots(itemId) > |Split(selfId)| + 1
  {
    var dots := LeadingDots(itemId);
    if dots == 0 then Ok(itemId)
    else
      var levels := Split(selfId);
      var count := |levels| - dots + 1;
      if count < 0 then
        Err("Item '" + itemId + "' can not be determined. Parent item '" + selfId + "' has only "
          + Decimal(|levels|) + " levels!")
      else
        var rel := itemId[dots..];
        var prefix := ResolvedPrefix(levels, count);
        Ok(if rel != "" then prefix + "." + rel else prefix)
  }

  /** `return_item`: the resolved id, provided the host knows that item. */
  function ReturnItem(selfId: string, itemId: string, known: string -> bool): (r: Result<string>)
    ensures r.Ok? ==> known(r.value) && r == ResolveItemId(selfId, itemId)
    ensures LeadingDots(itemId) == 0 ==> (r.Ok? <==> known(itemId))
    ensures r.Ok? <==> ResolveItemId(selfId, itemId).Ok? && known(ResolveItemId(selfId, itemId).value)
    ensures ResolveItemId(selfId, itemId).Err? ==> r == ResolveItemId(selfId, itemId)
  {
    var id :- ResolveItemId(selfId, itemId);
    if known(id) then Ok(id)
    else if LeadingDots(itemId) == 0 then Err("Item '" + itemId + "' not found!")
    else Err("Determined item '" + id + "' does not exist.")
  }

  // ---------------------------------------------------------------------------
  // Split/join round trips

  lemma {:induction false} SplitNoDot(s: string)
    requires '.' !in s
    ensures Split(s) == [s]
    decreases |s|
  {
    if |s| > 0 {
      forall i | 0 <= i < |s[1..]|
        ensures s[1..][i] != '.'
      {
        assert s[1..][i] == s[i + 1];
      }
      SplitNoDot(s[1..]);
      assert [s[0]] + s[1..] == s;
    }
  }

  lemma {:induction false} SplitConcat(a: string, b: string)
    ensures Split(a + "." + b) == Split(a) + Split(b)
    decreases |a|
  {
    if |a| == 0 {
      assert a + "." + b == "." + b;
      assert ("." + b)[1..] == b;
    } else {
      assert (a + "." + b)[0] == a[0];
      assert (a + "." + b)[1..] == a[1..] + "." + b;
      SplitConcat(a[1..], b);
    }
  }

  /** `".".join` undoes `split(".")`. */
  lemma {:induction false} DottedSplit(s: string)
    ensures Dotted(Split(s)) == s
    decreases |s|
  {
    if |s| > 0 {
      DottedSplit(s[1..]);
      var rest := Split(s[1..]);
      if s[0] == '.' {
        assert Split(s) == [""] + rest;
        assert Split(s)[1..] == rest;
        assert s == "." + s[1..];
      } else {
        var r := Split(s);
        assert r[0] == [s[0]] + rest[0];
        if |rest| == 1 {
          assert s == [s[0]] + s[1..];
        } else {
          assert r[1..] == rest[1..];
          assert Dotted(rest) == rest[0] + "." + Dotted(rest[1..]);
          assert s == [s[0]] + s[1..];
        }
      }
    }
  }

  /** `split(".")` undoes `".".join` on dot-free levels. */
  lemma {:induction false} SplitDotted(levels: seq<string>)
    requires |levels| >= 1
    requires forall i :: 0 <= i < |levels| ==> '.' !in levels[i]
    ensures Split(Dotted(levels)) == levels
    decreases |levels|
  {
    SplitNoDot(levels[0]);
    if |levels| > 1 {
      SplitDotted(levels[1..]);
      SplitConcat(levels[0], Dotted(levels[1..]));
      assert [levels[0]] + levels[1..] == levels;
    }
  }

  lemma {:induction false} JoinFromNonEmpty(acc: string, levels: seq<string>)
    requires acc != "" && |levels| >= 1
    ensures JoinFrom(acc, levels) == acc + "." + Dotted(levels)
    decreases |levels|
  {
    var acc' := acc + "." + levels[0];
    assert acc' != "";
    if |levels| > 1 {
      JoinFromNonEmpty(acc', levels[1..]);
      assert acc' + "." + Dotted(levels[1..]) == acc + "." + (levels[0] + "." + Dotted(levels[1..]));
    }
  }

  /** The joining loop is `".".join` when the first level is not empty. */
  lemma JoinFromIsDotted(levels: seq<string>)
    requires |levels| >= 1 && levels[0] != ""
    ensures JoinFrom("", levels) == Dotted(levels)
  {
    assert "" + levels[0] == levels[0];
    assert JoinFrom("", levels) == JoinFrom(levels[0], levels[1..]);
    if |levels| > 1 {
      JoinFromNonEmpty(levels[0], levels[1..]);
    }
  }

  /** An id of the item tree: not empty and not starting with a dot. */
  predicate WellFormedId(id: string) {
    id != "" && id[0] != '.'
  }

  lemma FirstLevelNonEmpty(id: string)
    requires WellFormedId(id)
    ensures Split(id)[0] != ""
  {
  }

  // ---------------------------------------------------------------------------
  // Properties of the resolution

  /** One leading dot means "below the controlled item itself". */
  lemma OneDotAppends(selfId: string, rel: string)
    requires WellFormedId(selfId)
    requires rel != "" && rel[0] != '.'
    ensures ResolveItemId(selfId, "." + rel) == Ok(selfId + "." + rel)
  {
    var itemId := "." + rel;
    assert LeadingDots(itemId) == 1 by {
      assert itemId[1..] == rel;
    }
    var levels := Split(selfId);
    assert levels[..|levels|] == levels;
    FirstLevelNonEmpty(selfId);
    JoinFromIsDotted(levels);
    DottedSplit(selfId);
    assert itemId[1..] == rel;
  }

  /** With k >= 1 leading dots and at least one level kept, the resolved id
      consists of the first len(levels) - k + 1 levels of the controlled
      item's id followed by the levels of the remainder. */
  lemma ResolvedLevels(selfId: string, itemId: string)
    requires WellFormedId(selfId)
    requires 1 <= LeadingDots(itemId) <= |Split(selfId)|
    ensures ResolveItemId(selfId, itemId).Ok?
    ensures var dots := LeadingDots(itemId);
      var levels := Split(selfId);
      var rel := itemId[dots..];
      Split(ResolveItemId(selfId, itemId).value) ==
        levels[..|levels| - dots + 1] + (if rel == "" then [] else Split(rel))
  {
    var dots := LeadingDots(itemId);
    var levels := Split(selfId);
    var count := |levels| - dots + 1;
    var kept := levels[..count];
    ResolvedValue(selfId, itemId);
    SplitDotted(kept);
    var rel := itemId[dots..];
    if rel != "" {
      SplitConcat(Dotted(kept), rel);
    }
  }

  /** With exactly one dot more than there are levels, nothing of the
      controlled item's id is kept and the result starts with a dot rather
      than being rejected. */
  lemma NoLevelKeptGivesLeadingDot(selfId: string, itemId: string)
    requires LeadingDots(itemId) == |Split(selfId)| + 1
    requires LeadingDots(itemId) < |itemId|
    ensures ResolveItemId(selfId, itemId) == Ok("." + itemId[LeadingDots(itemId)..])
  {
    var levels := Split(selfId);
    var rel := itemId[LeadingDots(itemId)..];
    assert levels[..0] == [];
    assert ResolvedPrefix(levels, 0) == "";
    assert "" + "." + rel == "." + rel;
  }

  /** The resolved id spelled out: the kept levels joined by dots, then the
      remainder. */
  lemma ResolvedValue(selfId: string, itemId: string)
    requires WellFormedId(selfId)
    requires 1 <= LeadingDots(itemId) <= |Split(selfId)|
    ensures var dots := LeadingDots(itemId);
      var kept := Dotted(Split(selfId)[..|Split(selfId)| - dots + 1]);
      var rel := itemId[dots..];
      ResolveItemId(selfId, itemId) == Ok(if rel == "" then kept else kept + "." + rel)
  {
    var levels := Split(selfId);
    FirstLevelNonEmpty(selfId);
    JoinFromIsDotted(levels[..|levels| - LeadingDots(itemId) + 1]);
  }

  lemma ThreeLevels(a: string, b: string, c: string)
    requires '.' !in a && '.' !in b && '.' !in c
    ensures Split(a + "." + b + "." + c) == [a, b, c]
  {
    var levels := [a, b, c];
    forall i | 0 <= i < |levels|
      ensures '.' !in levels[i]
    {
    }
    SplitDotted(levels);
    assert levels[1..] == [b, c];
    assert [b, c][1..] == [c];
    assert Dotted([b, c]) == b + "." + c;
    assert Dotted(levels) == a + "." + (b + "." + c);
    assert a + "." + (b + "." + c) == a + "." + b + "." + c;
  }

  /** The worked example of the `return_item` comment, for any three-level
      item `a.b.c` and dot-free name `n`: two dots give `a.b.n`. */
  lemma TwoDotsKeepTwoLevels(a: string, b: string, c: string, n: string)
    requires a != "" && '.' !in a && '.' !in b && '.' !in c
    requires n != "" && '.' !in n
    ensures ResolveItemId(a + "." + b + "." + c, ".." + n) == Ok(a + "." + b + "." + n)
  {
    var self := a + "." + b + "." + c;
    var id := ".." + n;
    ThreeLevels(a, b, c);
    assert n[0] != '.' by { assert n[0] in n; }
    assert LeadingDots(id) == 2 by {
      assert id[1..] == "." + n;
      assert ("." + n)[1..] == n;
    }
    assert self[0] == a[0];
    ResolvedValue(self, id);
    assert [a, b, c][..2] == [a, b];
    assert id[2..] == n;
  }

  /** Three dots give `a.n`. */
  lemma ThreeDotsKeepOneLevel(a: string, b: string, c: string, n: string)
    requires a != "" && '.' !in a && '.' !in b && '.' !in c
    requires n != "" && '.' !in n
    ensures ResolveItemId(a + "." + b + "." + c, "..." + n) == Ok(a + "." + n)
  {
    var self := a + "." + b + "." + c;
    var id := "..." + n;
    ThreeLevels(a, b, c);
    assert n[0] != '.' by { assert n[0] in n; }
    assert LeadingDots(id) == 3 by {
      assert id[1..] == ".." + n;
      assert (".." + n)[1..] == "." + n;
      assert ("." + n)[1..] == n;
    }
    assert self[0] == a[0];
    ResolvedValue(self, id);
    assert [a, b, c][..1] == [a];
    assert id[3..] == n;
  }
}

=== FILE: manual_filter.dfy ===
/** The "manual change" filter (`AbFunctions.manual_item_update_eval`): a
    change counts as manual, and the manual item is toggled, unless its
    original caller/source is excluded or not included. */
module ManualFilter {
  import opened Values

  /** A configured `as_manual_exclude` / `as_manual_include` attribute. */
  datatype Setting = Absent | Text(entry: string) | Entries(entries: seq<string>) | Other

  /** Python's `entry.partition(":")`, without the separator. */
  function Partition(entry: string): (r: (string, string))
    ensures ':' !in r.0
    ensures ':' in entry ==> r.0 + ":" + r.1 == entry
    ensures ':' !in entry ==> r == (entry, "")
    decreases |entry|
  {
    if |entry| == 0 then ("", "")
    else if entry[0] == ':' then ("", entry[1..])
    else
      var (c, s) := Partition(entry[1..]);
      assert entry == [entry[0]] + entry[1..];
      assert ':' in entry[1..] ==> ':' in entry;
      ([entry[0]] + c, s)
  }

  /** A pattern "c:s" matches when each half equals the original caller
      resp. source or is "*"; without a colon the source half is "". */
  predicate EntryMatches(entry: string, caller: Val, source: Val) {
    var (c, s) := Partition(entry);
    (Str(c) == caller || c == "*") && (Str(s) == source || s == "*")
  }

  predicate SomeEntryMatches(entries: seq<string>, caller: Val, source: Val) {
    exists i :: 0 <= i < |entries| && EntryMatches(entries[i], caller, source)
  }

  /** The scan over the entries, stopping at the first match. */
  function AnyMatch(entries: seq<string>, caller: Val, source: Val): (r: bool)
    ensures r <==> SomeEntryMatches(entries, caller, source)
    decreases |entries|
  {
    if |entries| == 0 then false
    else if EntryMatches(entries[0], caller, source) then true
    else
      var rest := AnyMatch(entries[1..], caller, source);
      assert SomeEntryMatches(entries, caller, source) ==> rest by {
        if SomeEntryMatches(entries, caller, source) {
          var i :| 0 <= i < |entries| && EntryMatches(entries[i], caller, source);
          assert i > 0;
          assert entries[1..][i - 1] == entries[i];
        }
      }
      rest
  }

  /** A setting as a list of entries: a string is a one-element list. */
  function AsList(s: Setting): seq<string>
    requires s.Text? || s.Entries?
  {
    if s.Text? then [s.entry] else s.entries
  }

  /** The filter's decision as a predicate: both settings are usable, no
      exclusion entry matches, and inclusion is absent or has a match. */
  predicate Counts(exclusion: Setting, inclusion: Setting, caller: Val, source: Val) {
    && !exclusion.Other? && !inclusion.Other?
    && (exclusion.Absent? || !SomeEntryMatches(AsList(exclusion), caller, source))
    && (inclusion.Absent? || SomeEntryMatches(AsList(inclusion), caller, source))
  }

  /** `manual_item_update_eval`: the item's current value (no trigger) or its
      negation (trigger). */
  function ManualUpdate(current: Val, exclusion: Setting, inclusion: Setting, caller: Val, source: Val): (r: Val)
    ensures r == current || r == Bool(!Truthy(current))
    ensures r == Bool(!Truthy(current)) <==> Counts(exclusion, inclusion, caller, source)
  {
    var noTrigger := current;
    var trigger := Bool(!Truthy(current));
    if exclusion.Other? then noTrigger
    else if !exclusion.Absent? && AnyMatch(AsList(exclusion), caller, source) then noTrigger
    else if inclusion.Other? then noTrigger
    else if inclusion.Absent? then trigger
    else if AnyMatch(AsList(inclusion), caller, source) then trigger
    else noTrigger
  }

  /** An exclusion match wins over any inclusion entry. */
  lemma ExcludeWins(current: Val, exclusion: Setting, inclusion: Setting, caller: Val, source: Val, i: nat)
    requires exclusion.Text? || exclusion.Entries?
    requires i < |AsList(exclusion)| && EntryMatches(AsList(exclusion)[i], caller, source)
    ensures ManualUpdate(current, exclusion, inclusion, caller, source) == current
  {
    assert !Counts(exclusion, inclusion, caller, source);
  }

  /** A catch-all inclusion entry "*:*" makes every non-excluded change count. */
  lemma WildcardIncludeCounts(current: Val, exclusion: Setting, caller: Val, source: Val)
    requires exclusion.Absent?
    ensures ManualUpdate(current, exclusion, Text("*:*"), caller, source) == Bool(!Truthy(current))
  {
    assert Partition("*:*") == ("*", "*") by {
      assert "*:*"[1..] == ":*";
      assert ":*"[1..] == "*";
      assert Partition(":*") == ("", "*");
      assert ['*'] + "" == "*";
    }
    assert EntryMatches(AsList(Text("*:*"))[0], caller, source);
  }
}

=== FILE: results.dfy ===
/** Failure-compatible result types shared by the whole model.
    A Python `raise ValueError(msg)` is modelled as `Err(msg)`. */
module Results {

  datatype Option<+T> = None | Some(value: T) {
    function GetOr(default: T): T {
      match this
      case Some(v) => v
      case None => default
    }
  }

  datatype Result<+T> = Ok(value: T) | Err(msg: string) {
    predicate IsFailure() {
      Err?
    }

    function PropagateFailure<U>(): Result<U>
      requires Err?
    {
      Err(msg)
    }

    function Extract(): T
      requires Ok?
    {
      value
    }
  }
}

=== FILE: state.dfy ===
/** A state: id, name, display text and the two condition-set groups that
    decide whether it can be entered and whether it can be left. */
module States {
  import opened Results
  import opened Values
  import opened Conditions

  /** A named conjunction of conditions. */
  datatype ConditionSet = ConditionSet(name: string, conditions: seq<Condition>)

  datatype State = State(
    id: string,
    name: string,
    text: Option<string>,
    enter: seq<ConditionSet>,
    leave: seq<ConditionSet>)

  /** The display text; an unset text falls back to the state name. */
  function Text(s: State): (r: string)
    ensures s.text.Some? ==> r == s.text.value
    ensures s.text.None? ==> r == s.name
  {
    s.text.GetOr(s.name)
  }

  /** One condition as a condition set sees it: an exception raised while
      checking counts as matching for this cycle. */
  predicate CheckOpen(c: Condition, env: Env, scope: Scope) {
    match Check(c, env, scope)
    case Ok(b) => b
    case Err(_) => true
  }

  /** Every condition of the set holds. */
  predicate AllHold(conds: seq<Condition>, env: Env, scope: Scope) {
    forall j :: 0 <= j < |conds| ==> CheckOpen(conds[j], env, scope)
  }

  /** All conditions of a set match (scanned in order, stopping at the first miss). */
  function AllMatch(conds: seq<Condition>, env: Env, scope: Scope): (r: bool)
    ensures r == AllHold(conds, env, scope)
    decreases |conds|
  {
    if |conds| == 0 then true
    else if !CheckOpen(conds[0], env, scope) then false
    else AllMatch(conds[1..], env, scope)
  }

  /** Some set of the group matches entirely (scanned in order, stopping at the first hit). */
  function AnySetMatches(sets: seq<ConditionSet>, env: Env, scope: Scope): (r: bool)
    ensures r <==> exists i :: 0 <= i < |sets| && AllHold(sets[i].conditions, env, scope)
    decreases |sets|
  {
    if |sets| == 0 then false
    else if AllMatch(sets[0].conditions, env, scope) then true
    else AnySetMatches(sets[1..], env, scope)
  }

  /** A group with no sets does not restrict; otherwise OR over the sets. */
  predicate OneSetMatching(group: seq<ConditionSet>, env: Env, scope: Scope) {
    |group| == 0 || AnySetMatches(group, env, scope)
  }

  function CanEnter(s: State, env: Env, scope: Scope): (r: bool)
    ensures r <==> |s.enter| == 0 || exists i :: 0 <= i < |s.enter| && AllHold(s.enter[i].conditions, env, scope)
  {
    OneSetMatching(s.enter, env, scope)
  }

  function CanLeave(s: State, env: Env, scope: Scope): (r: bool)
    ensures r <==> |s.leave| == 0 || exists i :: 0 <= i < |s.leave| && AllHold(s.leave[i].conditions, env, scope)
  {
    OneSetMatching(s.leave, env, scope)
  }

  /** Whether a state can be entered is OR-of-AND over its enter group: some
      set has every condition matching (or there is no set at all). */
  lemma CanEnterIsOrOfAnd(s: State, env: Env, scope: Scope)
    ensures CanEnter(s, env, scope) <==>
      |s.enter| == 0 || exists i :: 0 <= i < |s.enter| && AllHold(s.enter[i].conditions, env, scope)
  {
  }

  /** The same for leaving, over the leave group. */
  lemma CanLeaveIsOrOfAnd(s: State, env: Env, scope: Scope)
    ensures CanLeave(s, env, scope) <==>
      |s.leave| == 0 || exists i :: 0 <= i < |s.leave| && AllHold(s.leave[i].conditions, env, scope)
  {
  }

  /** A condition that failed at completion never blocks its set. */
  lemma FailedConditionNeverBlocks(c: Condition, env: Env, scope: Scope)
    requires c.error.Some?
    ensures CheckOpen(c, env, scope)
  {
  }
}

=== FILE: state_fill.dfy ===
/** Assembly of a state from the configuration tree (`AbState.__fill`):
    inheritance through `as_use` (pre-order, at most five nested levels),
    routing of `enter*`/`leave*` children into the two condition-set groups,
    actions, and the name/text defaults. Condition sets are kept here as the
    merged attribute maps of their configuration nodes. */
module StateFill {
  import opened Results

  type Attrs = map<string, string>

  /** A configuration node: id, `str(item)` (its name, or its id when it has
      none), its attributes and its children in declaration order. */
  datatype Node = Node(id: string, display: string, conf: Attrs, children: seq<Node>)

  /** The state under construction. `completions` counts how often the
      condition sets and actions were completed. */
  datatype Draft = Draft(
    name: string,
    text: Option<string>,
    enter: map<string, Attrs>,
    leave: map<string, Attrs>,
    actions: Attrs,
    completions: nat)

  const EmptyDraft := Draft("", None, map[], map[], map[], 0)

  /** Deepest `as_use` level that is still imported. */
  const MaxDepth: nat := 5

  predicate StartsWith(s: string, prefix: string) {
    |prefix| <= |s| && s[..|prefix|] == prefix
  }

  /** The part of an item id after its last dot. */
  function LastPart(id: string): (r: string)
    ensures '.' !in r
    decreases |id|
  {
    if |id| == 0 then ""
    else if id[|id| - 1] == '.' then ""
    else LastPart(id[..|id| - 1]) + [id[|id| - 1]]
  }

  datatype Route = ToEnter | ToLeave | Ignored

  function RouteOf(name: string): (r: Route)
    ensures r == ToEnter <==> name == "enter" || StartsWith(name, "enter_")
    ensures r == ToLeave <==> !(name == "enter" || StartsWith(name, "enter_")) && (name == "leave" || StartsWith(name, "leave_"))
  {
    if name == "enter" || StartsWith(name, "enter_") then ToEnter
    else if name == "leave" || StartsWith(name, "leave_") then ToLeave
    else Ignored
  }

  /** Adds a node's attributes to the named set of a group; attributes already
      there are kept unless the node sets them again. */
  function Merge(group: map<string, Attrs>, name: string, attrs: Attrs): (r: map<string, Attrs>)
    ensures r.Keys == group.Keys + {name}
    ensures forall n :: n in group && n != name ==> r[n] == group[n]
    ensures name in group ==> group[name].Keys <= r[name].Keys
    ensures forall k :: k in attrs ==> k in r[name] && r[name][k] == attrs[k]
    ensures forall k :: k in r[name] && k !in attrs ==> name in group && k in group[name] && r[name][k] == group[name][k]
  {
    group[name := (if name in group then group[name] else map[]) + attrs]
  }

  predicate RoutedTo(c: Node, route: Route) {
    RouteOf(LastPart(c.id)) == route
  }

  /** Routes one child of a state node to the enter or leave group by the
      last part of its id; any other child is ignored. */
  function RouteOne(c: Node, d: Draft): (r: Draft)
    ensures r == d.(enter := r.enter, leave := r.leave)
    ensures RoutedTo(c, ToEnter) ==> r.enter == Merge(d.enter, LastPart(c.id), c.conf) && r.leave == d.leave
    ensures RoutedTo(c, ToLeave) ==> r.leave == Merge(d.leave, LastPart(c.id), c.conf) && r.enter == d.enter
    ensures RoutedTo(c, Ignored) ==> r == d
  {
    var n := LastPart(c.id);
    match RouteOf(n)
    case ToEnter => d.(enter := Merge(d.enter, n, c.conf))
    case ToLeave => d.(leave := Merge(d.leave, n, c.conf))
    case Ignored => d
  }

  /** Routes the children in declaration order. */
  function RouteChildren(children: seq<Node>, d: Draft): (r: Draft)
    ensures r == d.(enter := r.enter, leave := r.leave)
    ensures (forall i :: 0 <= i < |children| ==> !RoutedTo(children[i], ToEnter)) ==> r.enter == d.enter
    ensures (forall i :: 0 <= i < |children| ==> !RoutedTo(children[i], ToLeave)) ==> r.leave == d.leave
    decreases |children|
  {
    if |children| == 0 then d
    else
      assert forall i :: 1 <= i < |children| ==> children[i] == children[1..][i - 1];
      RouteChildren(children[1..], RouteOne(children[0], d))
  }

  /** The group a route selects. */
  function Group(d: Draft, g: Route): map<string, Attrs>
    requires g != Ignored
  {
    if g == ToEnter then d.enter else d.leave
  }

  /** The attributes of the last child routed to a set win over everything
      that was in that set before; this holds for either group. */
  lemma {:induction false} LastChildWins(children: seq<Node>, d: Draft, g: Route, i: nat, k: string)
    requires g != Ignored
    requires i < |children| && RoutedTo(children[i], g) && k in children[i].conf
    requires forall j :: i < j < |children| ==> LastPart(children[j].id) != LastPart(children[i].id)
    ensures LastPart(children[i].id) in Group(RouteChildren(children, d), g)
    ensures k in Group(RouteChildren(children, d), g)[LastPart(children[i].id)]
    ensures Group(RouteChildren(children, d), g)[LastPart(children[i].id)][k] == children[i].conf[k]
    decreases |children|
  {
    var d1 := RouteOne(children[0], d);
    if i == 0 {
      forall j | 0 <= j < |children[1..]| ensures LastPart(children[1..][j].id) != LastPart(children[0].id) {
        assert children[1..][j] == children[j + 1];
      }
      LaterChildrenKeep(children[1..], d1, g, LastPart(children[0].id), k);
    } else {
      forall j | i - 1 < j < |children[1..]| ensures LastPart(children[1..][j].id) != LastPart(children[1..][i - 1].id) {
        assert children[1..][j] == children[j + 1];
      }
      LastChildWins(children[1..], d1, g, i - 1, k);
    }
  }

  /** Children with other names leave a set's attributes alone, in either
      group. */
  lemma {:induction false} LaterChildrenKeep(children: seq<Node>, d: Draft, g: Route, n: string, k: string)
    requires g != Ignored
    requires n in Group(d, g) && k in Group(d, g)[n]
    requires forall j :: 0 <= j < |children| ==> LastPart(children[j].id) != n
    ensures n in Group(RouteChildren(children, d), g) && k in Group(RouteChildren(children, d), g)[n]
    ensures Group(RouteChildren(children, d), g)[n][k] == Group(d, g)[n][k]
    decreases |children|
  {
    if |children| > 0 {
      var d1 := RouteOne(children[0], d);
      forall j | 0 <= j < |children[1..]| ensures LastPart(children[1..][j].id) != n {
        assert children[1..][j] == children[j + 1];
      }
      LaterChildrenKeep(children[1..], d1, g, n, k);
    }
  }

  /** One node's own contribution, applied after everything it imports. */
  function Layer(node: Node, depth: nat, d: Draft): (r: Draft)
    ensures r.completions == d.completions + (if depth == 0 then 1 else 0)
    ensures node.display != node.id ==> r.name == node.display
    ensures node.display == node.id && depth > 0 ==> r.name == d.name
    ensures "as_name" in node.conf ==> r.text == Some(node.conf["as_name"])
    ensures "as_name" !in node.conf && depth > 0 ==> r.text == d.text
    ensures depth == 0 ==> r.text.Some?
    ensures depth == 0 && node.display != "" ==> r.name != ""
    ensures forall k :: k in node.conf ==> k in r.actions && r.actions[k] == node.conf[k]
    ensures forall k :: k in d.actions && k !in node.conf ==> k in r.actions && r.actions[k] == d.actions[k]
  {
    var d1 := RouteChildren(node.children, d);
    var d2 := d1.(actions := d1.actions + node.conf);
    var name := if node.display != node.id || (d2.name == "" && depth == 0) then node.display else d2.name;
    var text :=
      if "as_name" in node.conf then Some(node.conf["as_name"])
      else if d2.text.None? && depth == 0 then Some(name)
      else d2.text;
    d2.(name := name, text := text, completions := d2.completions + (if depth == 0 then 1 else 0))
  }

  /** `__fill`: import the `as_use` target first (one level deeper), then layer
      this node on top; beyond MaxDepth nothing more is imported. `lookup`
      resolves an `as_use` reference and fails as `return_item` does. */
  function Fill(node: Node, depth: nat, acc: Draft, lookup: string -> Result<Node>): (r: Result<Draft>)
    ensures depth > MaxDepth ==> r == Ok(acc)
    ensures r.Ok? ==> r.value.completions == acc.completions + (if depth == 0 then 1 else 0)
    decreases if depth <= MaxDepth then MaxDepth + 1 - depth else 0, 1
  {
    if depth > MaxDepth then Ok(acc)
    else
      match Imported(node, depth, acc, lookup)
      case Ok(inherited) => Ok(Layer(node, depth, inherited))
      case Err(e) => Err(e)
  }

  /** What the `as_use` target of a node contributes before the node itself. */
  function Imported(node: Node, depth: nat, acc: Draft, lookup: string -> Result<Node>): (r: Result<Draft>)
    requires depth <= MaxDepth
    ensures "as_use" !in node.conf ==> r == Ok(acc)
    ensures r.Ok? ==> r.value.completions == acc.completions
    decreases MaxDepth + 1 - depth, 0
  {
    if "as_use" !in node.conf then Ok(acc)
    else
      match lookup(node.conf["as_use"])
      case Ok(used) => Fill(used, depth + 1, acc, lookup)
      case Err(e) => Err(e)
  }

  /** A state built from its configuration node. */
  function BuildState(node: Node, lookup: string -> Result<Node>): (r: Result<Draft>)
    ensures r.Ok? ==> r.value.completions == 1 && r.value.text.Some?
  {
    Fill(node, 0, EmptyDraft, lookup)
  }

  // ---------------------------------------------------------------------------
  // Reference: the chain of imported nodes

  /** The nodes `__fill` visits, from the state's own node outwards. */
  function Chain(node: Node, depth: nat, lookup: string -> Result<Node>): (r: Result<seq<Node>>)
    ensures depth > MaxDepth ==> r == Ok([])
    ensures r.Ok? && depth <= MaxDepth ==> 1 <= |r.value| <= MaxDepth + 1 - depth && r.value[0] == node
    decreases if depth <= MaxDepth then MaxDepth + 1 - depth else 0
  {
    if depth > MaxDepth then Ok([])
    else if "as_use" in node.conf then
      var used :- lookup(node.conf["as_use"]);
      var rest :- Chain(used, depth + 1, lookup);
      Ok([node] + rest)
    else Ok([node])
  }

  /** The display name of the shallowest node in the chain that has a name of
      its own, or `base` if none has. */
  function DeepName(chain: seq<Node>, base: string): string
    decreases |chain|
  {
    if |chain| == 0 then base
    else if chain[0].display != chain[0].id then chain[0].display
    else DeepName(chain[1..], base)
  }

  /** The `as_name` of the shallowest node in the chain that has one, or `base`. */
  function DeepText(chain: seq<Node>, base: Option<string>): Option<string>
    decreases |chain|
  {
    if |chain| == 0 then base
    else if "as_name" in chain[0].conf then Some(chain[0].conf["as_name"])
    else DeepText(chain[1..], base)
  }

  predicate Named(chain: seq<Node>) {
    exists i :: 0 <= i < |chain| && chain[i].display != chain[i].id
  }

  predicate DisplaysNonEmpty(chain: seq<Node>) {
    forall i :: 0 <= i < |chain| ==> chain[i].display != ""
  }

  lemma {:induction false} DeepNameBase(chain: seq<Node>, base: string)
    ensures !Named(chain) ==> DeepName(chain, base) == base
    ensures Named(chain) ==> DeepName(chain, base) == DeepName(chain, "")
    ensures Named(chain) && DisplaysNonEmpty(chain) ==> DeepName(chain, "") != ""
    decreases |chain|
  {
    if |chain| > 0 && chain[0].display == chain[0].id {
      DeepNameBase(chain[1..], base);
      assert Named(chain) ==> Named(chain[1..]) by {
        if Named(chain) {
          var i :| 0 <= i < |chain| && chain[i].display != chain[i].id;
          assert chain[1..][i - 1] == chain[i];
        }
      }
      assert Named(chain[1..]) ==> Named(chain) by {
        if Named(chain[1..]) {
          var i :| 0 <= i < |chain[1..]| && chain[1..][i].display != chain[1..][i].id;
          assert chain[i + 1] == chain[1..][i];
        }
      }
      assert DisplaysNonEmpty(chain) ==> DisplaysNonEmpty(chain[1..]) by {
        if DisplaysNonEmpty(chain) {
          forall i | 0 <= i < |chain[1..]| ensures chain[1..][i].display != "" {
            assert chain[1..][i] == chain[i + 1];
          }
        }
      }
    } else if |chain| > 0 {
      assert Named(chain);
    }
  }

  lemma {:induction false} DeepTextBase(chain: seq<Node>, base: Option<string>)
    ensures DeepText(chain, None).None? ==> DeepText(chain, base) == base
    ensures DeepText(chain, None).Some? ==> DeepText(chain, base) == DeepText(chain, None)
    decreases |chain|
  {
    if |chain| > 0 && "as_name" !in chain[0].conf {
      DeepTextBase(chain[1..], base);
    }
  }

  /** Below the top level, the name and text that come out of `__fill` are the
      shallowest ones configured along the chain, else what was there before. */
  lemma {:induction false} FillDeep(node: Node, depth: nat, acc: Draft, lookup: string -> Result<Node>)
    requires depth >= 1
    ensures Fill(node, depth, acc, lookup).Ok? <==> Chain(node, depth, lookup).Ok?
    ensures Fill(node, depth, acc, lookup).Ok? ==>
      && Fill(node, depth, acc, lookup).value.name == DeepName(Chain(node, depth, lookup).value, acc.name)
      && Fill(node, depth, acc, lookup).value.text == DeepText(Chain(node, depth, lookup).value, acc.text)
    decreases if depth <= MaxDepth then MaxDepth + 1 - depth else 0
  {
    if depth <= MaxDepth {
      if "as_use" in node.conf {
        var used := lookup(node.conf["as_use"]);
        if used.Ok? {
          FillDeep(used.value, depth + 1, acc, lookup);
          var inner := Fill(used.value, depth + 1, acc, lookup);
          var rest := Chain(used.value, depth + 1, lookup);
          assert Imported(node, depth, acc, lookup) == inner;
          if rest.Ok? {
            var ch := Chain(node, depth, lookup).value;
            assert ch == [node] + rest.value;
            assert ch[1..] == rest.value;
            var d := Layer(node, depth, inner.value);
            assert Fill(node, depth, acc, lookup) == Ok(d);
          }
        }
      } else {
        assert Chain(node, depth, lookup) == Ok([node]);
        assert Fill(node, depth, acc, lookup) == Ok(Layer(node, depth, acc));
        assert [node][1..] == [];
      }
    }
  }

  /** The state's name is the display name of the shallowest node along the
      `as_use` chain that carries a name of its own, else the state's id; its
      text is the shallowest `as_name`, else that name. */
  lemma NameAndTextFromChain(node: Node, lookup: string -> Result<Node>)
    requires Chain(node, 0, lookup).Ok? ==> DisplaysNonEmpty(Chain(node, 0, lookup).value)
    ensures BuildState(node, lookup).Ok? <==> Chain(node, 0, lookup).Ok?
    ensures BuildState(node, lookup).Ok? ==>
      && BuildState(node, lookup).value.name == DeepName(Chain(node, 0, lookup).value, node.id)
      && BuildState(node, lookup).value.text == DeepText(Chain(node, 0, lookup).value, Some(BuildState(node, lookup).value.name))
  {
    if "as_use" in node.conf {
      var used := lookup(node.conf["as_use"]);
      if used.Ok? {
        FillDeep(used.value, 1, EmptyDraft, lookup);
        var rest := Chain(used.value, 1, lookup);
        if rest.Ok? {
          var ch := Chain(node, 0, lookup).value;
          assert ch[1..] == rest.value;
          assert DisplaysNonEmpty(rest.value) by {
            forall i | 0 <= i < |rest.value| ensures rest.value[i].display != "" {
              assert rest.value[i] == ch[i + 1];
            }
          }
          DeepNameBase(rest.value, node.id);
          DeepNameBase(rest.value, "");
          var r := BuildState(node, lookup).value;
          DeepTextBase(rest.value, Some(r.name));
        }
      }
    }
  }

  /** Local data is layered over imported data: the last child of the state's
      own node routed to a set fixes that set's attributes, in the enter and
      in the leave group, and the node's own attributes fix its actions. */
  lemma OwnSetsLayeredOnTop(node: Node, depth: nat, acc: Draft, lookup: string -> Result<Node>,
                            g: Route, i: nat, k: string)
    requires depth <= MaxDepth && Fill(node, depth, acc, lookup).Ok?
    requires g != Ignored
    requires i < |node.children| && RoutedTo(node.children[i], g) && k in node.children[i].conf
    requires forall j :: i < j < |node.children| ==> LastPart(node.children[j].id) != LastPart(node.children[i].id)
    ensures LastPart(node.children[i].id) in Group(Fill(node, depth, acc, lookup).value, g)
    ensures k in Group(Fill(node, depth, acc, lookup).value, g)[LastPart(node.children[i].id)]
    ensures Group(Fill(node, depth, acc, lookup).value, g)[LastPart(node.children[i].id)][k] == node.children[i].conf[k]
  {
    if "as_use" in node.conf {
      var used := lookup(node.conf["as_use"]);
      LastChildWins(node.children, Fill(used.value, depth + 1, acc, lookup).value, g, i, k);
    } else {
      LastChildWins(node.children, acc, g, i, k);
    }
  }

  /** The node's own attributes win over imported ones in the actions, and
      imported attributes the node does not set again are kept. */
  lemma OwnActionsLayeredOnTop(node: Node, depth: nat, acc: Draft, lookup: string -> Result<Node>, k: string)
    requires depth <= MaxDepth && Fill(node, depth, acc, lookup).Ok?
    ensures k in node.conf ==>
      k in Fill(node, depth, acc, lookup).value.actions
      && Fill(node, depth, acc, lookup).value.actions[k] == node.conf[k]
    ensures var inherited := Imported(node, depth, acc, lookup);
      inherited.Ok? && k in inherited.value.actions && k !in node.conf ==>
        k in Fill(node, depth, acc, lookup).value.actions
        && Fill(node, depth, acc, lookup).value.actions[k] == inherited.value.actions[k]
  {
  }
}

=== FILE: values.dfy ===
/** Dynamic values as the plugin sees them (Python objects read from items,
    literals from the configuration, results of evaluations), together with
    the two Python operators the condition checks rely on: `==` after the
    string-coercion fallback, and `<`, which raises for unrelated types. */
module Values {
  import opened Results

  datatype Val =
    | Null                  // Python None
    | Bool(b: bool)
    | Num(n: int)
    | Str(s: string)
    | List(items: seq<Val>)

  /** The Python type of a value, compared by `type(a) != type(b)`. */
  datatype Kind = NoneKind | BoolKind | NumKind | StrKind | ListKind

  function KindOf(v: Val): Kind {
    match v
    case Null => NoneKind
    case Bool(_) => BoolKind
    case Num(_) => NumKind
    case Str(_) => StrKind
    case List(_) => ListKind
  }

  /** Python truthiness (`if x:`, `not x`). */
  predicate Truthy(v: Val) {
    match v
    case Null => false
    case Bool(b) => b
    case Num(n) => n != 0
    case Str(s) => s != ""
    case List(xs) => xs != []
  }

  /** Python's `str()` is an outside function here; these are the two facts
      about it the list-matching lemma needs. */
  ghost predicate StrIsIdentityOnStrings(toStr: Val -> string) {
    forall s :: toStr(Str(s)) == s
  }

  ghost predicate StrSeparatesSameKind(toStr: Val -> string) {
    forall a, b :: KindOf(a) == KindOf(b) ==> (a == b <==> toStr(a) == toStr(b))
  }

  /** Equality as the condition checks perform it: values of the same type are
      compared directly; values of different types are both passed through
      `str()` and the strings are compared. */
  predicate LooseEq(toStr: Val -> string, a: Val, b: Val) {
    if KindOf(a) == KindOf(b) then a == b else toStr(a) == toStr(b)
  }

  /** Python's `str < str`: code-point lexicographic order. */
  predicate LexLess(s: string, t: string)
    decreases |s|
  {
    |t| > 0 && (|s| == 0 || s[0] < t[0] || (s[0] == t[0] && LexLess(s[1..], t[1..])))
  }

  lemma {:induction false} LexLessIrreflexive(s: string)
    ensures !LexLess(s, s)
    decreases |s|
  {
    if |s| > 0 {
      LexLessIrreflexive(s[1..]);
    }
  }

  predicate IsNumeric(v: Val) {
    v.Bool? || v.Num?
  }

  /** `bool` is a subclass of `int` in Python, so it orders like 0/1. */
  function NumericValue(v: Val): int
    requires IsNumeric(v)
  {
    if v.Bool? then (if v.b then 1 else 0) else v.n
  }

  /** Python's `a < b`: numbers with numbers, strings with strings; any other
      pairing raises a TypeError. */
  function Less(a: Val, b: Val): (r: Result<bool>)
    ensures r.Ok? <==> (IsNumeric(a) && IsNumeric(b)) || (a.Str? && b.Str?)
    ensures IsNumeric(a) && IsNumeric(b) ==> r == Ok(NumericValue(a) < NumericValue(b))
    ensures a.Num? && b.Num? ==> r == Ok(a.n < b.n)
    ensures a.Bool? && b.Num? ==> r == Ok((if a.b then 1 else 0) < b.n)
    ensures a.Num? && b.Bool? ==> r == Ok(a.n < (if b.b then 1 else 0))
    ensures a.Str? && b.Str? ==> r == Ok(LexLess(a.s, b.s))
  {
    if IsNumeric(a) && IsNumeric(b) then Ok(NumericValue(a) < NumericValue(b))
    else if a.Str? && b.Str? then Ok(LexLess(a.s, b.s))
    else Err("'<' not supported between these types")
  }

  /** No number and no string is below itself. */
  lemma LessIrreflexive(v: Val)
    requires IsNumeric(v) || v.Str?
    ensures Less(v, v) == Ok(false)
  {
    if v.Str? {
      LexLessIrreflexive(v.s);
    }
  }
}
